=== FILE: README.md ===
# houdini-debug-logger, modelled in Dafny

The houdini-debug-logger crate records named geometric values (points,
matrices, quaternions, scalars, polylines, polygons, meshes, armatures,
capsules, spheres) frame by frame. It exports them to Houdini as a point cloud
with one point per recorded value. Each point carries five attributes:

- `P`: the value's representative position;
- `name`: the name it was logged under;
- `time`: the one-based frame number;
- `metadata`: the value's full payload as JSON;
- `kind`: a tag the downstream parser dispatches on.

The model has six modules:

- `Loggable` (loggable.dfy) holds the closed set of loggable values. It gives each value its `Kind`, `Position` and `Metadata`. It also has a reference decoder, `Decode`, that rebuilds a value from those three.
- `Document` (document.dfy) is a structured JSON document with readers for its arrays.
- `Columns` (columns.dfy) holds the five per-point columns that `save` builds, each by its own walk over the frames. It proves that the columns agree row by row.
- `Export` (export.dfy) lists what one `save` asks of the host as a plan of host calls. It also covers how the plan is cut short by a rejected call or a panic.
- `DebugLogger` (logger.dfy) is the logger object: its frames, its dirty flag, its export target and its lock.
- `Global` (global.dfy) is the once-only process-wide slot and the free functions `init_houlog`, `init_houlog_live`, `houlog`, `houlog_next_frame` and `save_houlog`.

The host (Houdini Engine) is not modelled: its behaviour is a parameter.

- The connection attempt of `init_houlog_live` is a function from endpoint to an optional session.
- An export is a sequence of `HostCall` values. The host's answer, a `HostAnswer`, accepts every call, rejects the call at a given index, or lacks the live session's "/obj/recordings" node.

A panic in `save` is the outcome `Panic`. It happens in two cases. First, a live session has no "/obj/recordings" node, whose lookup `create_output_node` unwraps. Second, a recorded value's `position` panics. In the model that value is an empty polyline, polygon, mesh or armature, which has no first element. That case rests on the model letting the logger record the loggable.rs shapes (see "## Left out"); in the source as written, only a caller's own `DebugLoggable` type whose `position` panics can cause it. A panic leaves the logger's lock
poisoned, so every later operation on that logger fails with `LockPoisoned`.

Integer casts are written out. `usize as i32` is `Export.AsI32` (two's complement wrap-around) and `/` on `i32` is `Export.DivTrunc` (rounds toward zero).

While fewer than 2^31 / 3 values are recorded, every count the export declares equals the number of recorded values (`ExportCountsAgree`). Past that bound the `P` attribute's count is wrong while the part's count is still right, up to 2^31 - 1 entries (`PositionCountWrongPastBound`). The `P` count is negative up to 1431655764 entries and 0 or positive after that. From 2^31 entries the part's count wraps too (`PositionCountWraps`). The model keeps the casts exactly as written.

Behaviour of the source the model keeps:

- `houlog_next_frame` and `save_houlog` without an installed logger print a message and return `Ok(())`. They do not return a "not initialised" error.
- The `xform` metadata of a matrix lists its four column axes in glam's order (x, y, z, w axis). It does not list rows.
- A rejected `init_houlog`/`init_houlog_live` still builds a logger, and dropping that logger saves it. The model includes this export of an empty recording. For a live logger whose host lacks the recordings node, that export panics inside `drop`, and the panic unwinds out of `init_houlog_live`.
- The installed logger lives in a `static` (src/houdini_debug_logger.rs:139), and statics are never dropped. So there is no final export when the program ends: recordings reach the host only through `save_houlog`. Only rejected loggers are dropped (`DebugLogger.Logger.Drop`).

## Model

| member | source | states |
|---|---|---|
| Loggable.Kind | src/loggable.rs:8-10 | `kind`: no ensures; its body is the definition, the tag of the value's variant. `KindIdentifiesVariant` and `VariantNamedKindName` state its properties |
| Loggable.Position | src/loggable.rs:12-16 | `position`: no ensures; its body is the definition, defined where `HasPosition` holds. `TransformPositionIsTranslation`, `CapsuleMetadata`, `SphereCenterOnlyInPosition`, `LineBecomesTwoPointPolyline` and `DecodeAfterExport` state its properties |
| Loggable.Metadata | src/loggable.rs:18-19 | `as_json` is always a JSON object with at least one key, and its key set depends only on the value's kind, never on its data; the per-kind lemmas below and `DecodeAfterExport` state what the keys hold |
| Loggable.IntoLoggable | src/loggable.rs:132-139 | `into_loggable` for `Line`: no ensures; its body is the definition. `LineBecomesTwoPointPolyline` states its properties |
| Loggable.KindIdentifiesVariant | src/loggable.rs:5-10 | two values have the same kind tag exactly when they are the same variant, so the tag is a sound discriminator for the parser |
| Loggable.LineBecomesTwoPointPolyline | src/loggable.rs:132-139 | a Line becomes the polyline through its start and end, of kind "line", positioned at its start |
| Loggable.TransformPositionIsTranslation | src/loggable.rs:46-62 | a matrix's metadata is the single key `xform` holding its 16 column-major entries, and its position is entries 12..14 (the translation) |
| Loggable.PointArraysMetadata | src/loggable.rs:112-123 | polyline and polygon metadata, empty shapes included, has exactly the keys x, y, z; each reads back as the points' coordinates, one entry per point, entry i being point i's coordinate |
| Loggable.MeshMetadata | src/loggable.rs:185-198 | mesh metadata has exactly the keys x, y, z, i, c; the coordinate arrays read back as the vertices' coordinates, `i` and `c` as the indices and index counts |
| Loggable.FlattenColsAt | src/loggable.rs:218-222 | the armature's flattened transforms hold matrix j's column-major entry c at position 16*j + c |
| Loggable.ArmatureMetadata | src/loggable.rs:217-230 | armature metadata, empty armatures included, has exactly the keys names, xforms, parents; names and parents read back unchanged; xforms reads back as the flattened transforms, 16 entries per joint, entry 16*j + c being entry c of joint j's column-major array |
| Loggable.CapsuleMetadata | src/loggable.rs:245-256 | capsule metadata has exactly the keys a, b, r holding both end points and the radius; its position is the midpoint of the end points |
| Loggable.SphereCenterOnlyInPosition | src/loggable.rs:270-279 | a sphere's metadata is only its radius and does not depend on its center; the center is its position |
| Loggable.VariantNamedKindName | src/loggable.rs:5-10 | the decoder maps every kind tag back to the variant that produces it |
| Loggable.ChunksOfFlattenCols | src/loggable.rs:217-230 | cutting the flattened armature transforms into 16-entry chunks gives back the transforms |
| Loggable.DecodeAfterExport | src/loggable.rs:22-280 | for every value with a position, kind + metadata + position determine it: decoding them gives back the value (matrices, meshes, armatures, capsules included) |
| Document.FloatArrayRoundTrip | src/loggable.rs:31-38 | a JSON float array reads back as the sequence it was built from |
| Document.IntArrayRoundTrip | src/loggable.rs:190-196 | a JSON integer array reads back as the sequence it was built from |
| Document.StrArrayRoundTrip | src/loggable.rs:224-228 | a JSON string array reads back as the sequence it was built from |
| Columns.AppendEntry | src/houdini_debug_logger.rs:222-229 | the push onto the active frame keeps the number of frames; `LogAddsOneRow`, `LogAddsPosition` and `LogEffect` state its effect on the point count and the columns |
| Columns.PointCount | src/houdini_debug_logger.rs:247-251 | the `num_points` sum: no ensures; its body is the definition. `PrefixCount`, `NoEntriesNoRows`, `RowOrigin` and `RowsDistinct` state its properties |
| Columns.Names | src/houdini_debug_logger.rs:300-304 | the `name` column has one row per entry (length `PointCount`); `NameRow` states what each row holds |
| Columns.Kinds | src/houdini_debug_logger.rs:328-332 | the `kind` column has one row per entry; `KindRow` states what each row holds |
| Columns.Times | src/houdini_debug_logger.rs:356-361 | the `time` column has one row per entry; `TimeRow` states what each row holds |
| Columns.MetadataColumn | src/houdini_debug_logger.rs:378-382 | the `metadata` column has one row per entry; `MetadataRow` states what each row holds |
| Columns.Positions | src/houdini_debug_logger.rs:277-282 | the `P` column has three floats per entry; `PositionRow` states what each triple holds |
| Columns.NameRow | src/houdini_debug_logger.rs:300-304 | the row of entry i of frame f is row PointCount(frames before f) + i, and holds that entry's name |
| Columns.KindRow | src/houdini_debug_logger.rs:328-332 | the same row of the kind column holds that entry's kind |
| Columns.TimeRow | src/houdini_debug_logger.rs:356-361 | the same row of the time column holds f + 1, the one-based frame number |
| Columns.MetadataRow | src/houdini_debug_logger.rs:378-382 | the same row of the metadata column holds that entry's metadata document |
| Columns.RowAlignment | src/houdini_debug_logger.rs:259-263 | the four per-entry columns, built independently, agree row by row: every entry has one row, at the same index in each |
| Columns.PositionRow | src/houdini_debug_logger.rs:277-282 | floats 3k..3k+2 of the position column are the position of the entry at row k |
| Columns.RowOrigin | src/houdini_debug_logger.rs:247-251 | every row below the point count is the row of some entry i of some frame f; with RowAlignment, every row of a column belongs to a recorded entry |
| Columns.RowsDistinct | src/houdini_debug_logger.rs:300-304 | distinct entries have distinct rows, so with RowOrigin the rows and the entries correspond one to one |
| Columns.PrefixCount | src/houdini_debug_logger.rs:247-251 | the entries before frame f plus frame f's entries never exceed the total point count |
| Columns.LogAddsOneRow | src/houdini_debug_logger.rs:219-231 | logging adds one to the point count and one row at the end of the name, kind, time and metadata columns, timed at the active frame's number; every earlier row stays as it was |
| Columns.LogAddsPosition | src/houdini_debug_logger.rs:219-231 | logging a value with a position appends its x, y and z to the end of the P column; every earlier float stays as it was |
| Columns.LogEffect | src/houdini_debug_logger.rs:219-231 | `LogAddsOneRow` and `LogAddsPosition` together: what one log does to all five columns |
| Columns.NextFrameAddsNoRow | src/houdini_debug_logger.rs:212-217 | opening a frame changes no column (P included) and no point count |
| Columns.NoEntriesNoRows | src/houdini_debug_logger.rs:247-251 | a zero point count means every frame is empty and every column is empty |
| Export.AsI32 | src/houdini_debug_logger.rs:255 | `usize as i32` lands in the i32 range and agrees with its input modulo 2^32 |
| Export.AsI32Small | src/houdini_debug_logger.rs:255 | below 2^31 the cast changes nothing |
| Export.DivTrunc | src/houdini_debug_logger.rs:285 | Rust's `/` on i32 truncates toward zero: for a >= 0 the quotient r has r*b <= a < (r+1)*b, and for a < 0 it has (r-1)*b < a <= r*b |
| Export.ExportPlan | src/houdini_debug_logger.rs:233-275 | the calls of one `save`: it panics exactly when some recorded value has no position; it always starts with node creation, cook, geometry and part info; a plan that does not panic ends with the commit and, for a file target, the write to disk. `AttributeOrder`, `ExportCountsAgree`, `EmptyExport` and `PanicBeforeAttributes` state the rest |
| Export.BuildTable | src/houdini_debug_logger.rs:259-263 | the five columns one save builds: three floats per entry for P, one row per entry in the others |
| Export.Execute | src/houdini_debug_logger.rs:233-275 | the export issues the plan's calls in order, and a successful export issues all of them; a rejection of the call at index k stops it after exactly the first k + 1 calls and reports call k as the error; a missing recordings node panics in the first call; it succeeds exactly when nothing is rejected and nothing panics |
| Export.AttributeOrder | src/houdini_debug_logger.rs:259-263 | a completed export adds exactly the attributes P, name, time, metadata, kind, in that order |
| Export.ExportCountsAgree | src/houdini_debug_logger.rs:247-263 | below 2^31/3 entries, the part declares one point per entry and every attribute declares that count; every value array set has one row per entry; with any entry all five columns are set |
| Export.PositionCountIsPointCount | src/houdini_debug_logger.rs:284-285 | the P count, computed from the flattened floats, is the entry count while the floats fit in an i32 |
| Export.PositionCountWraps | src/houdini_debug_logger.rs:284-285 | concrete counts: with 715827883 entries P declares -715827882, with 1431655766 entries 0; the part's count of 2^31 entries is -2^31 |
| Export.PositionCountWrongPastBound | src/houdini_debug_logger.rs:284-285 | for every entry count from 715827883 to 2^31 - 1 the part's count is right and the P count is wrong; the P count is negative exactly up to 1431655764 entries |
| Export.EmptyExport | src/houdini_debug_logger.rs:291-295 | with no entries the export still creates the node, declares zero points, adds all five attributes with count 0, sets no values, commits and (for a file) writes |
| Export.PanicBeforeAttributes | src/houdini_debug_logger.rs:277-282 | a recorded value without a first element makes the export panic after the part is declared and before any attribute is added |
| DebugLogger.Logger.WithFile | src/houdini_debug_logger.rs:180-188 | a file logger starts with one empty frame, dirty, not poisoned |
| DebugLogger.Logger.WithSession | src/houdini_debug_logger.rs:199-209 | a live logger exports to the node "recording" under "/obj/recordings" of its session, starting with one empty dirty frame |
| DebugLogger.Logger.NewWithLiveSession | src/houdini_debug_logger.rs:190-210 | the given session is used, else one obtained from 127.0.0.1:9090; a failed connection is returned and builds no logger |
| DebugLogger.Logger.NextFrame | src/houdini_debug_logger.rs:212-217 | a new empty frame is appended and the logger marked dirty; no column changes, P included; a poisoned lock fails and changes nothing |
| DebugLogger.Logger.Log | src/houdini_debug_logger.rs:219-231 | the entry is appended to the last frame and becomes the last row of the name, kind, time and metadata columns, and its position the last three floats of P; the logger is marked dirty even when no frame exists; a valid, unpoisoned logger always succeeds |
| DebugLogger.Logger.Save | src/houdini_debug_logger.rs:233-275 | a clean logger does nothing; a dirty one is marked clean before exporting, runs the export plan of its frames and keeps its frames; a panic (unpositioned value or missing recordings node) poisons the lock |
| DebugLogger.Logger.Drop | src/houdini_debug_logger.rs:433-439 | dropping runs one last save of a dirty, unpoisoned logger and discards its error; a panic in that save is not caught: it poisons the lock and is reported as `panicked`, to unwind out of the caller |
| Global.Registry.constructor | src/houdini_debug_logger.rs:139 | the slot starts empty |
| Global.Registry.InitHoulog | src/houdini_debug_logger.rs:116-120 | the first initialisation installs a fresh file logger; later ones fail, keep the installed logger untouched, and export the rejected logger's empty recording, which cannot panic, so the call returns the "already initialized" error |
| Global.Registry.InitHoulogLive | src/houdini_debug_logger.rs:122-126 | the connection is made first, so its failure is reported even when a logger is installed; otherwise as `InitHoulog` for a live logger, except that dropping the rejected logger panics when the host lacks the recordings node, and then the call panics instead of failing |
| Global.Registry.Houlog | src/houdini_debug_logger.rs:94-103 | without a logger nothing happens; otherwise the entry is logged, and a poisoned logger makes the call panic |
| Global.Registry.HoulogNextFrame | src/houdini_debug_logger.rs:105-114 | without a logger the call succeeds and does nothing; otherwise it is the logger's `next_frame` |
| Global.Registry.SaveHoulog | src/houdini_debug_logger.rs:128-137 | without a logger the call succeeds and does nothing; otherwise it is the logger's `save`: a clean logger succeeds with no host call, a poisoned one fails with "error during lock", a dirty one runs the export and is poisoned exactly when it panics |
| Global.SecondSaveDoesNothing | src/houdini_debug_logger.rs:235-239 | after one value is logged, a first save exports that one-row recording and a second save issues no host call, whatever the host answered the first time; the second save succeeds unless the first panicked, and then fails with "error during lock" |

## Left out

- Host calls are not modelled one by one. Node lookup, deletion of an existing "recording" node and node creation (or a fresh session with an `Object/geo` parent for a file target) are one `CreateOutputNode` call. Their individual failures are rejections of that call.
- A node without geometry ("No geometry on node") is a rejection of `GetGeometry`.
- A file path that is not valid UTF-8 is a rejection of `SaveToFile`.
- f32 arithmetic is not modelled: coordinates are reals, so rounding, NaN and the capsule midpoint's rounding are left out, and the frame time `(frame + 1) as f32` is exact.
- JSON text rendering (`to_string`, key order, number formatting) is not modelled: metadata is a structured document.
- The mutex is not modelled as a lock between threads. Only its poisoning after a panic in `save` is modelled; concurrent interleavings are not.
- The printed "not initialized" and "Failed to save" messages are output only; the model omits them.
- The `IntoLoggable` trait is not modelled in general; only its `Line` implementation is (`Loggable.IntoLoggable`).
- `houlog` takes any `DebugLoggable` type in the source; the model fixes the closed set of value types defined in loggable.rs.
- The source declares two distinct `DebugLoggable` traits: one at src/houdini_debug_logger.rs:14-20 and one at src/loggable.rs:8-20. `houlog` (line 94), `log` (line 219) and `LogEntry.value` (line 154) use the first. Only Vec3, Mat4, Quat and f32 implement it (lines 22-92). Polyline, Polygon, Mesh, Armature, Capsule and Sphere implement only the second (src/loggable.rs:103, 146, 176, 208, 240, 265). So in the source as written, `houlog` cannot take those six shapes. The model merges the two traits into one `Value` type so that the logger can record the loggable.rs shapes. For Vec3, Mat4, Quat and f32 the two sets of implementations agree, and the model has one definition.
- The unit test at the end of src/houdini_debug_logger.rs needs a running Houdini session and is not modelled.
- Export.AsI32: the part's point count and the attribute counts use the wrapped value as written; the model does not state what Houdini does with a negative count.

=== FILE: columns.dfy ===
/**
 * The frame buffer and the five columns the export builds from it
 * (`add_positions`, `add_names`, `add_kinds`, `add_frame_times`,
 * `add_metadata` in src/houdini_debug_logger.rs). Each column is defined on
 * its own, as each builder walks the frames on its own; the lemmas show that
 * they nonetheless agree row by row.
 */
module Columns {
  import opened Document
  import opened Loggable

  /** `LogEntry`: the name given at the call site and the recorded value. */
  datatype Entry = Entry(name: string, value: Value)

  /** The frames, frame 0 first; each frame's entries in insertion order. */
  type Frames = seq<seq<Entry>>

  /** `log`'s change to the buffer: `e` pushed onto the last frame. */
  function AppendEntry(frames: Frames, e: Entry): (r: Frames)
    requires frames != []
    ensures |r| == |frames|
  {
    frames[..|frames| - 1] + [frames[|frames| - 1] + [e]]
  }

  /** The number of entries in all frames: the point count the export declares. */
  function PointCount(frames: Frames): nat
  {
    if frames == [] then 0
    else PointCount(frames[..|frames| - 1]) + |frames[|frames| - 1]|
  }

  /** Every recorded value has a position, so `add_positions` does not panic. */
  predicate AllPositioned(frames: Frames)
  {
    forall f, i | 0 <= f < |frames| && 0 <= i < |frames[f]| :: HasPosition(frames[f][i].value)
  }

  function FrameNames(fr: seq<Entry>): seq<string>
  {
    seq(|fr|, i requires 0 <= i < |fr| => fr[i].name)
  }

  function FrameKinds(fr: seq<Entry>): seq<string>
  {
    seq(|fr|, i requires 0 <= i < |fr| => Kind(fr[i].value))
  }

  function FrameMetadata(fr: seq<Entry>): seq<Json>
  {
    seq(|fr|, i requires 0 <= i < |fr| => Metadata(fr[i].value))
  }

  function FrameTimes(fr: seq<Entry>, time: real): seq<real>
  {
    seq(|fr|, _ => time)
  }

  predicate FramePositioned(fr: seq<Entry>)
  {
    forall i | 0 <= i < |fr| :: HasPosition(fr[i].value)
  }

  /** The positions of one frame's entries, three floats each. */
  function FramePositions(fr: seq<Entry>): (r: seq<real>)
    requires FramePositioned(fr)
    ensures |r| == 3 * |fr|
  {
    if fr == [] then []
    else FramePositions(fr[..|fr| - 1]) + Vec3Array(Position(fr[|fr| - 1].value))
  }

  /** The `name` column. */
  function Names(frames: Frames): (r: seq<string>)
    ensures |r| == PointCount(frames)
  {
    if frames == [] then []
    else Names(frames[..|frames| - 1]) + FrameNames(frames[|frames| - 1])
  }

  /** The `kind` column. */
  function Kinds(frames: Frames): (r: seq<string>)
    ensures |r| == PointCount(frames)
  {
    if frames == [] then []
    else Kinds(frames[..|frames| - 1]) + FrameKinds(frames[|frames| - 1])
  }

  /** The `metadata` column, one document per row. */
  function MetadataColumn(frames: Frames): (r: seq<Json>)
    ensures |r| == PointCount(frames)
  {
    if frames == [] then []
    else MetadataColumn(frames[..|frames| - 1]) + FrameMetadata(frames[|frames| - 1])
  }

  /** The `time` column: every entry of frame f (counting from 0) gets f + 1. */
  function Times(frames: Frames): (r: seq<real>)
    ensures |r| == PointCount(frames)
  {
    if frames == [] then []
    else Times(frames[..|frames| - 1]) + FrameTimes(frames[|frames| - 1], |frames| as real)
  }

  /** The `P` column: x, y and z of each row's position. */
  function Positions(frames: Frames): (r: seq<real>)
    requires AllPositioned(frames)
    ensures |r| == 3 * PointCount(frames)
  {
    if frames == [] then []
    else
      var last := frames[|frames| - 1];
      assert FramePositioned(last);
      Positions(frames[..|frames| - 1]) + FramePositions(last)
  }

  /** The rows of frames before f come first, then frame f's own. */
  lemma {:induction false} PrefixCount(frames: Frames, f: nat)
    requires f < |frames|
    ensures PointCount(frames[..f]) + |frames[f]| <= PointCount(frames)
  {
    var n := |frames|;
    var init := frames[..n - 1];
    if f < n - 1 {
      PrefixCount(init, f);
      assert init[..f] == frames[..f] && init[f] == frames[f];
    } else {
      assert init == frames[..f];
    }
  }

  lemma {:induction false} NameRow(frames: Frames, f: nat, i: nat)
    requires f < |frames| && i < |frames[f]|
    ensures PointCount(frames[..f]) + i < PointCount(frames)
    ensures Names(frames)[PointCount(frames[..f]) + i] == frames[f][i].name
  {
    PrefixCount(frames, f);
    var init := frames[..|frames| - 1];
    if f < |frames| - 1 {
      assert init[..f] == frames[..f] && init[f] == frames[f];
      NameRow(init, f, i);
    } else {
      assert init == frames[..f];
    }
  }

  lemma {:induction false} KindRow(frames: Frames, f: nat, i: nat)
    requires f < |frames| && i < |frames[f]|
    ensures PointCount(frames[..f]) + i < PointCount(frames)
    ensures Kinds(frames)[PointCount(frames[..f]) + i] == Kind(frames[f][i].value)
  {
    PrefixCount(frames, f);
    var init := frames[..|frames| - 1];
    if f < |frames| - 1 {
      assert init[..f] == frames[..f] && init[f] == frames[f];
      KindRow(init, f, i);
    } else {
      assert init == frames[..f];
    }
  }

  lemma {:induction false} TimeRow(frames: Frames, f: nat, i: nat)
    requires f < |frames| && i < |frames[f]|
    ensures PointCount(frames[..f]) + i < PointCount(frames)
    ensures Times(frames)[PointCount(frames[..f]) + i] == (f + 1) as real
  {
    PrefixCount(frames, f);
    var init := frames[..|frames| - 1];
    if f < |frames| - 1 {
      assert init[..f] == frames[..f] && init[f] == frames[f];
      TimeRow(init, f, i);
    } else {
      assert init == frames[..f];
    }
  }

  lemma {:induction false} MetadataRow(frames: Frames, f: nat, i: nat)
    requires f < |frames| && i < |frames[f]|
    ensures PointCount(frames[..f]) + i < PointCount(frames)
    ensures MetadataColumn(frames)[PointCount(frames[..f]) + i] == Metadata(frames[f][i].value)
  {
    PrefixCount(frames, f);
    var init := frames[..|frames| - 1];
    if f < |frames| - 1 {
      assert init[..f] == frames[..f] && init[f] == frames[f];
      MetadataRow(init, f, i);
    } else {
      assert init == frames[..f];
    }
  }

  /**
   * Row alignment: entry i of frame f lands in the same row k of the name,
   * kind, time and metadata columns, and that row carries its name, its kind,
   * the time f + 1 and its metadata.
   */
  lemma RowAlignment(frames: Frames, f: nat, i: nat)
    requires f < |frames| && i < |frames[f]|
    ensures PointCount(frames[..f]) + i < PointCount(frames)
    ensures Names(frames)[PointCount(frames[..f]) + i] == frames[f][i].name
    ensures Kinds(frames)[PointCount(frames[..f]) + i] == Kind(frames[f][i].value)
    ensures Times(frames)[PointCount(frames[..f]) + i] == (f + 1) as real
    ensures MetadataColumn(frames)[PointCount(frames[..f]) + i] == Metadata(frames[f][i].value)
  {
    PrefixCount(frames, f);
    NameRow(frames, f, i);
    KindRow(frames, f, i);
    TimeRow(frames, f, i);
    MetadataRow(frames, f, i);
  }

  lemma {:induction false} FramePositionsAt(fr: seq<Entry>, i: nat)
    requires FramePositioned(fr)
    requires i < |fr|
    ensures FramePositions(fr)[3 * i..3 * i + 3] == Vec3Array(Position(fr[i].value))
  {
    var init := fr[..|fr| - 1];
    if i < |fr| - 1 {
      FramePositionsAt(init, i);
      assert init[i] == fr[i];
    }
  }

  /** A three-float slice of a concatenation lies in one of its halves. */
  lemma SliceOfConcat(a: seq<real>, b: seq<real>, j: nat)
    requires j + 3 <= |a| + |b|
    requires j + 3 <= |a| || |a| <= j
    ensures j + 3 <= |a| ==> (a + b)[j..j + 3] == a[j..j + 3]
    ensures |a| <= j ==> (a + b)[j..j + 3] == b[j - |a|..j - |a| + 3]
  {
  }

  lemma PositionsUnfold(frames: Frames)
    requires AllPositioned(frames) && frames != []
    ensures AllPositioned(frames[..|frames| - 1])
    ensures FramePositioned(frames[|frames| - 1])
    ensures Positions(frames) == Positions(frames[..|frames| - 1]) + FramePositions(frames[|frames| - 1])
  {
  }

  lemma {:induction false} PositionSlice(frames: Frames, f: nat, i: nat, k: nat)
    requires AllPositioned(frames)
    requires f < |frames| && i < |frames[f]|
    requires k == PointCount(frames[..f]) + i
    ensures 3 * k + 3 <= |Positions(frames)|
    ensures Positions(frames)[3 * k..3 * k + 3] == Vec3Array(Position(frames[f][i].value))
  {
    var n := |frames|;
    var init, last := frames[..n - 1], frames[n - 1];
    PositionsUnfold(frames);
    if f < n - 1 {
      assert init[..f] == frames[..f] && init[f] == frames[f];
      PositionSlice(init, f, i, k);
      SliceOfConcat(Positions(init), FramePositions(last), 3 * k);
    } else {
      assert init == frames[..f];
      FramePositionsAt(last, i);
      SliceOfConcat(Positions(init), FramePositions(last), 3 * k);
    }
  }

  /** Row k of the `P` column, floats 3k to 3k + 2, is the position of the entry in row k of the other columns. */
  lemma PositionRow(frames: Frames, f: nat, i: nat)
    requires AllPositioned(frames)
    requires f < |frames| && i < |frames[f]|
    ensures 3 * (PointCount(frames[..f]) + i) + 3 <= |Positions(frames)|
    ensures Positions(frames)[3 * (PointCount(frames[..f]) + i)..3 * (PointCount(frames[..f]) + i) + 3]
         == Vec3Array(Position(frames[f][i].value))
  {
    PositionSlice(frames, f, i, PointCount(frames[..f]) + i);
  }

  /** Every row below the point count is the row of some entry: the one in frame f at index i. */
  lemma {:induction false} RowOrigin(frames: Frames, k: nat) returns (f: nat, i: nat)
    requires k < PointCount(frames)
    ensures f < |frames| && i < |frames[f]|
    ensures k == PointCount(frames[..f]) + i
  {
    var n := |frames|;
    var init := frames[..n - 1];
    if k >= PointCount(init) {
      f, i := n - 1, k - PointCount(init);
      assert init == frames[..f];
    } else {
      f, i := RowOrigin(init, k);
      assert init[..f] == frames[..f] && init[f] == frames[f];
    }
  }

  /**
   * Distinct entries have distinct rows, so with `RowOrigin` the rows and the
   * entries correspond one to one.
   */
  lemma RowsDistinct(frames: Frames, f1: nat, i1: nat, f2: nat, i2: nat)
    requires f1 < |frames| && i1 < |frames[f1]|
    requires f2 < |frames| && i2 < |frames[f2]|
    requires f1 != f2 || i1 != i2
    ensures PointCount(frames[..f1]) + i1 != PointCount(frames[..f2]) + i2
  {
    if f1 < f2 {
      PrefixBefore(frames, f1, f2);
    } else if f2 < f1 {
      PrefixBefore(frames, f2, f1);
    }
  }

  /** All of frame f's rows come before the rows of any later frame g. */
  lemma PrefixBefore(frames: Frames, f: nat, g: nat)
    requires f < g <= |frames|
    ensures PointCount(frames[..f]) + |frames[f]| <= PointCount(frames[..g])
  {
    var pre := frames[..g];
    assert pre[..f] == frames[..f] && pre[f] == frames[f];
    PrefixCount(pre, f);
  }

  lemma LogSplit(frames: Frames, e: Entry)
    requires frames != []
    ensures AppendEntry(frames, e)[..|frames| - 1] == frames[..|frames| - 1]
    ensures AppendEntry(frames, e)[|frames| - 1] == frames[|frames| - 1] + [e]
  {
  }

  lemma AppendNames(frames: Frames, e: Entry)
    requires frames != []
    ensures Names(AppendEntry(frames, e)) == Names(frames) + [e.name]
  {
    var fr := frames[|frames| - 1];
    LogSplit(frames, e);
    assert FrameNames(fr + [e]) == FrameNames(fr) + [e.name];
  }

  lemma AppendKinds(frames: Frames, e: Entry)
    requires frames != []
    ensures Kinds(AppendEntry(frames, e)) == Kinds(frames) + [Kind(e.value)]
  {
    var fr := frames[|frames| - 1];
    LogSplit(frames, e);
    assert FrameKinds(fr + [e]) == FrameKinds(fr) + [Kind(e.value)];
  }

  lemma AppendMetadata(frames: Frames, e: Entry)
    requires frames != []
    ensures MetadataColumn(AppendEntry(frames, e)) == MetadataColumn(frames) + [Metadata(e.value)]
  {
    var fr := frames[|frames| - 1];
    LogSplit(frames, e);
    assert FrameMetadata(fr + [e]) == FrameMetadata(fr) + [Metadata(e.value)];
  }

  lemma FrameTimesAppend(fr: seq<Entry>, e: Entry, t: real)
    ensures FrameTimes(fr + [e], t) == FrameTimes(fr, t) + [t]
  {
  }

  lemma AppendTimes(frames: Frames, e: Entry)
    requires frames != []
    ensures Times(AppendEntry(frames, e)) == Times(frames) + [|frames| as real]
  {
    var n := |frames|;
    LogSplit(frames, e);
    FrameTimesAppend(frames[n - 1], e, n as real);
  }

  /**
   * `log` adds exactly one row at the end of every column, built from the new
   * entry, with the time of the last frame; the rows before it are unchanged.
   */
  lemma LogAddsOneRow(frames: Frames, e: Entry)
    requires frames != []
    ensures PointCount(AppendEntry(frames, e)) == PointCount(frames) + 1
    ensures Names(AppendEntry(frames, e)) == Names(frames) + [e.name]
    ensures Kinds(AppendEntry(frames, e)) == Kinds(frames) + [Kind(e.value)]
    ensures Times(AppendEntry(frames, e)) == Times(frames) + [|frames| as real]
    ensures MetadataColumn(AppendEntry(frames, e)) == MetadataColumn(frames) + [Metadata(e.value)]
  {
    AppendNames(frames, e);
    AppendKinds(frames, e);
    AppendMetadata(frames, e);
    AppendTimes(frames, e);
  }

  lemma FramePositionsAppend(fr: seq<Entry>, e: Entry)
    requires FramePositioned(fr) && HasPosition(e.value)
    ensures FramePositioned(fr + [e])
    ensures FramePositions(fr + [e]) == FramePositions(fr) + Vec3Array(Position(e.value))
  {
    assert (fr + [e])[..|fr|] == fr;
  }

  /**
   * `log` of a value with a position adds its position as the last three
   * floats of the `P` column; the floats before them are unchanged.
   */
  lemma LogAddsPosition(frames: Frames, e: Entry)
    requires frames != [] && AllPositioned(frames) && HasPosition(e.value)
    ensures AllPositioned(AppendEntry(frames, e))
    ensures Positions(AppendEntry(frames, e)) == Positions(frames) + Vec3Array(Position(e.value))
  {
    var n := |frames|;
    var g := AppendEntry(frames, e);
    LogSplit(frames, e);
    PositionsUnfold(frames);
    FramePositionsAppend(frames[n - 1], e);
    assert AllPositioned(g) by {
      forall f, i | 0 <= f < |g| && 0 <= i < |g[f]|
        ensures HasPosition(g[f][i].value)
      {
        if f < n - 1 {
          assert g[f] == g[..n - 1][f] == frames[f];
        } else {
          assert g[f] == frames[n - 1] + [e];
          assert FramePositioned(g[f]);
        }
      }
    }
    PositionsUnfold(g);
  }

  /** What `log` does to the five columns, for a value with or without a position. */
  lemma LogEffect(frames: Frames, e: Entry)
    requires frames != []
    ensures PointCount(AppendEntry(frames, e)) == PointCount(frames) + 1
    ensures Names(AppendEntry(frames, e)) == Names(frames) + [e.name]
    ensures Kinds(AppendEntry(frames, e)) == Kinds(frames) + [Kind(e.value)]
    ensures Times(AppendEntry(frames, e)) == Times(frames) + [|frames| as real]
    ensures MetadataColumn(AppendEntry(frames, e)) == MetadataColumn(frames) + [Metadata(e.value)]
    ensures AllPositioned(frames) && HasPosition(e.value) ==>
      AllPositioned(AppendEntry(frames, e)) && Positions(AppendEntry(frames, e)) == Positions(frames) + Vec3Array(Position(e.value))
  {
    LogAddsOneRow(frames, e);
    if AllPositioned(frames) && HasPosition(e.value) {
      LogAddsPosition(frames, e);
    }
  }

  /** `next_frame` adds no row: every column is unchanged until the next `log`. */
  lemma NextFrameAddsNoRow(frames: Frames)
    ensures PointCount(frames + [[]]) == PointCount(frames)
    ensures Names(frames + [[]]) == Names(frames)
    ensures Kinds(frames + [[]]) == Kinds(frames)
    ensures Times(frames + [[]]) == Times(frames)
    ensures MetadataColumn(frames + [[]]) == MetadataColumn(frames)
    ensures AllPositioned(frames) ==> AllPositioned(frames + [[]]) && Positions(frames + [[]]) == Positions(frames)
  {
    assert (frames + [[]])[..|frames|] == frames;
  }

  /** With no entries at all, every frame is empty and all five columns are empty. */
  lemma {:induction false} NoEntriesNoRows(frames: Frames)
    requires PointCount(frames) == 0
    ensures forall f | 0 <= f < |frames| :: frames[f] == []
    ensures AllPositioned(frames)
    ensures Positions(frames) == [] && Names(frames) == [] && Kinds(frames) == []
    ensures Times(frames) == [] && MetadataColumn(frames) == []
  {
    if frames != [] {
      var init := frames[..|frames| - 1];
      NoEntriesNoRows(init);
      assert forall f | 0 <= f < |init| :: frames[f] == init[f];
    }
  }
}

=== FILE: document.dfy ===
/**
 * The metadata document every loggable value produces: a JSON-shaped tree of
 * objects, arrays, numbers and strings. The source renders it as text with
 * serde_json; here it stays a structured value, and the readers below are
 * what a consumer of that text would use to get the arrays back.
 */
module Document {
  import opened Wrappers

  /** Integers (`usize`, `i32` in the source) and floats are kept apart, as serde_json keeps them. */
  datatype Json =
    | Int(i: int)
    | Float(f: real)
    | Str(s: string)
    | Arr(items: seq<Json>)
    | Obj(fields: map<string, Json>)

  function FloatArray(xs: seq<real>): Json
  {
    Arr(seq(|xs|, i requires 0 <= i < |xs| => Float(xs[i])))
  }

  function IntArray(xs: seq<int>): Json
  {
    Arr(seq(|xs|, i requires 0 <= i < |xs| => Int(xs[i])))
  }

  function StrArray(xs: seq<string>): Json
  {
    Arr(seq(|xs|, i requires 0 <= i < |xs| => Str(xs[i])))
  }

  /** The value stored under `key` in an object document. */
  function Field(j: Json, key: string): Option<Json>
  {
    if j.Obj? && key in j.fields then Some(j.fields[key]) else None
  }

  function AsFloat(j: Json): Option<real>
  {
    if j.Float? then Some(j.f) else None
  }

  /** Reads back an array whose items are all floats. */
  function AsFloats(j: Json): (r: Option<seq<real>>)
    ensures r.Some? ==> j.Arr? && |r.value| == |j.items|
  {
    if j.Arr? && forall i :: 0 <= i < |j.items| ==> j.items[i].Float?
    then Some(seq(|j.items|, i requires 0 <= i < |j.items| && j.items[i].Float? => j.items[i].f))
    else None
  }

  /** Reads back an array whose items are all integers. */
  function AsInts(j: Json): (r: Option<seq<int>>)
    ensures r.Some? ==> j.Arr? && |r.value| == |j.items|
  {
    if j.Arr? && forall i :: 0 <= i < |j.items| ==> j.items[i].Int?
    then Some(seq(|j.items|, i requires 0 <= i < |j.items| && j.items[i].Int? => j.items[i].i))
    else None
  }

  /** Reads back an array whose items are all strings. */
  function AsStrs(j: Json): (r: Option<seq<string>>)
    ensures r.Some? ==> j.Arr? && |r.value| == |j.items|
  {
    if j.Arr? && forall i :: 0 <= i < |j.items| ==> j.items[i].Str?
    then Some(seq(|j.items|, i requires 0 <= i < |j.items| && j.items[i].Str? => j.items[i].s))
    else None
  }

  lemma FloatArrayRoundTrip(xs: seq<real>)
    ensures AsFloats(FloatArray(xs)) == Some(xs)
  {
    var r := AsFloats(FloatArray(xs));
    assert r.Some? && |r.value| == |xs|;
    assert forall i :: 0 <= i < |xs| ==> r.value[i] == xs[i];
    assert r.value == xs;
  }

  lemma IntArrayRoundTrip(xs: seq<int>)
    ensures AsInts(IntArray(xs)) == Some(xs)
  {
    var r := AsInts(IntArray(xs));
    assert r.Some? && |r.value| == |xs|;
    assert forall i :: 0 <= i < |xs| ==> r.value[i] == xs[i];
    assert r.value == xs;
  }

  lemma StrArrayRoundTrip(xs: seq<string>)
    ensures AsStrs(StrArray(xs)) == Some(xs)
  {
    var r := AsStrs(StrArray(xs));
    assert r.Some? && |r.value| == |xs|;
    assert forall i :: 0 <= i < |xs| ==> r.value[i] == xs[i];
    assert r.value == xs;
  }
}

=== FILE: export.dfy ===
/**
 * What `save` asks of the host (src/houdini_debug_logger.rs, `save`,
 * the five `add_*` builders and `create_output_node`). The host itself is
 * not modelled: the export is a plan, a sequence of host calls with their
 * payloads, and the host's answer is a parameter naming the first call it
 * rejects, if any.
 */
module Export {
  import opened Wrappers
  import opened Document
  import opened Loggable
  import opened Columns

  /** A handle on a host session; what it connects to is not modelled. */
  datatype Session = Session(id: nat)

  /** `ExportMethod`: chosen when the logger is built, never changed. */
  datatype ExportTarget =
    | LiveSession(session: Session, path: string, nodeName: string)
    | File(path: string)

  /** The container and node name a live-session logger always exports to. */
  const RecordingsPath: string := "/obj/recordings"
  const RecordingNodeName: string := "recording"

  /** Where `init_houlog_live` connects when it is given no session. */
  datatype Endpoint = Endpoint(address: seq<nat>, port: nat)
  const DefaultEndpoint: Endpoint := Endpoint([127, 0, 0, 1], 9090)

  datatype Storage = FloatStorage | StringStorage
  datatype TypeInfo = PointTypeInfo | NoTypeInfo

  /** `AttributeInfo`; every attribute is owned by the points. */
  datatype AttrInfo = AttrInfo(count: int, tupleSize: nat, storage: Storage, typeInfo: TypeInfo)

  /** The values an attribute's `set` writes; metadata documents are written as JSON text in the source. */
  datatype AttrValues =
    | FloatValues(floats: seq<real>)
    | StringValues(strings: seq<string>)
    | DocumentValues(docs: seq<Json>)

  function ValuesLength(v: AttrValues): nat
  {
    match v
    case FloatValues(fs) => |fs|
    case StringValues(ss) => |ss|
    case DocumentValues(ds) => |ds|
  }

  /** One request to the host, in the order `save` issues them. */
  datatype HostCall =
    | CreateOutputNode(target: ExportTarget)   // node lookup, deletion and creation, or a fresh session
    | Cook
    | GetGeometry
    | SetPartInfo(pointCount: int)             // a Mesh part with this many points
    | AddAttribute(name: string, info: AttrInfo)
    | SetAttribute(name: string, values: AttrValues)
    | Commit
    | SaveToFile(path: string)

  /** Rust's `usize as i32`: keep the low 32 bits, read them as two's complement. */
  function AsI32(n: nat): (r: int)
    ensures -0x8000_0000 <= r < 0x8000_0000
    ensures (r - n) % 0x1_0000_0000 == 0
  {
    (n + 0x8000_0000) % 0x1_0000_0000 - 0x8000_0000
  }

  /** Rust's `/` on integers: rounds toward zero, so the quotient's magnitude is that of |a| / b. */
  function DivTrunc(a: int, b: int): (r: int)
    requires b > 0
    ensures a >= 0 ==> 0 <= r && r * b <= a < (r + 1) * b
    ensures a < 0 ==> r <= 0 && (r - 1) * b < a <= r * b
  {
    if a >= 0 then a / b else -((-a) / b)
  }

  /** An attribute is always added; its values are set only when the column is not empty. */
  function AttributeCalls(name: string, info: AttrInfo, values: AttrValues): (r: seq<HostCall>)
    ensures |r| == if ValuesLength(values) == 0 then 1 else 2
  {
    [AddAttribute(name, info)] + if ValuesLength(values) == 0 then [] else [SetAttribute(name, values)]
  }

  /** The five columns of one export, each built by its own walk over the frames. */
  datatype Table = Table(positions: seq<real>, names: seq<string>, times: seq<real>, docs: seq<Json>, kinds: seq<string>)

  function BuildTable(frames: Frames): (t: Table)
    requires AllPositioned(frames)
    ensures |t.positions| == 3 * PointCount(frames)
    ensures |t.names| == |t.times| == |t.docs| == |t.kinds| == PointCount(frames)
  {
    Table(Positions(frames), Names(frames), Times(frames), MetadataColumn(frames), Kinds(frames))
  }

  /** The five columns, in the order `save` adds them: P, name, time, metadata, kind. */
  function ColumnCalls(t: Table): seq<HostCall>
  {
    AttributeCalls("P", AttrInfo(DivTrunc(AsI32(|t.positions|), 3), 3, FloatStorage, PointTypeInfo), FloatValues(t.positions))
    + AttributeCalls("name", AttrInfo(AsI32(|t.names|), 1, StringStorage, NoTypeInfo), StringValues(t.names))
    + AttributeCalls("time", AttrInfo(AsI32(|t.times|), 1, FloatStorage, NoTypeInfo), FloatValues(t.times))
    + AttributeCalls("metadata", AttrInfo(AsI32(|t.docs|), 1, StringStorage, NoTypeInfo), DocumentValues(t.docs))
    + AttributeCalls("kind", AttrInfo(AsI32(|t.kinds|), 1, StringStorage, NoTypeInfo), StringValues(t.kinds))
  }

  /** The calls before the columns: the node, its cook, its geometry and the declared point count. */
  function Prelude(target: ExportTarget, frames: Frames): seq<HostCall>
  {
    [CreateOutputNode(target), Cook, GetGeometry, SetPartInfo(AsI32(PointCount(frames)))]
  }

  /** The calls after the columns: commit, then for a file target the write to disk. */
  function Finish(target: ExportTarget): seq<HostCall>
  {
    [Commit] + if target.File? then [SaveToFile(target.path)] else []
  }

  /**
   * The host calls of one export. When some value has no position the
   * positions column panics, after the prelude and before any attribute.
   */
  datatype Plan = Plan(calls: seq<HostCall>, panics: bool)

  function ExportPlan(target: ExportTarget, frames: Frames): (r: Plan)
    ensures r.panics <==> !AllPositioned(frames)
    ensures |r.calls| >= 4 && r.calls[..4] == Prelude(target, frames)
    ensures !r.panics ==> |r.calls| >= 5 && r.calls[|r.calls| - |Finish(target)|..] == Finish(target)
  {
    if AllPositioned(frames)
    then Plan(Prelude(target, frames) + ColumnCalls(BuildTable(frames)) + Finish(target), false)
    else Plan(Prelude(target, frames), true)
  }

  /** The errors of the source, by the message or condition that raises them. */
  datatype Error =
    | LockPoisoned         // "error during lock"
    | NoActiveFrame        // "For some reason no active frame was found"
    | AlreadyInitialized   // "HoudiniDebugLogger already initialized"
    | ConnectionFailed     // connect_to_socket failed
    | HostRejected(call: HostCall)

  /** How an operation ends: `Ok(())`, an `Err`, or a panic that unwinds out of it. */
  datatype Outcome = Success | Failure(error: Error) | Panic

  datatype Run = Run(outcome: Outcome, performed: seq<HostCall>)

  /**
   * The host's answer to one export: it accepts every call, rejects the call
   * at `index` with an error, or lacks the live session's "/obj/recordings"
   * node, whose lookup result `create_output_node` unwraps.
   */
  datatype HostAnswer = AcceptsAll | Rejects(index: nat) | LacksRecordingsNode

  /** The host rejects one of the plan's calls. */
  predicate Rejected(plan: Plan, host: HostAnswer)
  {
    host.Rejects? && host.index < |plan.calls|
  }

  /** The plan starts with a live-session node creation whose parent is missing. */
  predicate UnwrapsMissingParent(plan: Plan, host: HostAnswer)
  {
    && host.LacksRecordingsNode?
    && |plan.calls| > 0
    && plan.calls[0].CreateOutputNode?
    && plan.calls[0].target.LiveSession?
  }

  /**
   * Issues the plan's calls in order until the host rejects one; every `?` in
   * `save` returns at the first rejection. A missing recordings node panics
   * in the first call; otherwise the plan's own panic comes after its calls.
   */
  function Execute(plan: Plan, host: HostAnswer): (r: Run)
    ensures r.performed <= plan.calls
    ensures r.outcome.Failure? <==> Rejected(plan, host)
    ensures Rejected(plan, host) ==>
      && r.performed == plan.calls[..host.index + 1]
      && r.outcome.error == HostRejected(plan.calls[host.index])
    ensures UnwrapsMissingParent(plan, host) ==> r == Run(Panic, plan.calls[..1])
    ensures r.outcome == Success <==> !plan.panics && !Rejected(plan, host) && !UnwrapsMissingParent(plan, host)
    ensures r.outcome == Panic && !UnwrapsMissingParent(plan, host) ==> plan.panics && r.performed == plan.calls
    ensures r.outcome == Success ==> r.performed == plan.calls
  {
    if Rejected(plan, host) then Run(Failure(HostRejected(plan.calls[host.index])), plan.calls[..host.index + 1])
    else if UnwrapsMissingParent(plan, host) then Run(Panic, plan.calls[..1])
    else if plan.panics then Run(Panic, plan.calls)
    else Run(Success, plan.calls)
  }

  /** The names of the attributes a call sequence adds, in order. */
  function AddedAttributes(calls: seq<HostCall>): seq<string>
  {
    if calls == [] then []
    else (if calls[0].AddAttribute? then [calls[0].name] else []) + AddedAttributes(calls[1..])
  }

  lemma {:induction false} AddedAttributesConcat(a: seq<HostCall>, b: seq<HostCall>)
    ensures AddedAttributes(a + b) == AddedAttributes(a) + AddedAttributes(b)
  {
    if a == [] {
      assert a + b == b;
    } else {
      assert (a + b)[0] == a[0];
      assert (a + b)[1..] == a[1..] + b;
      AddedAttributesConcat(a[1..], b);
    }
  }

  lemma {:induction false} NoAttributeAdded(calls: seq<HostCall>)
    requires forall c | c in calls :: !c.AddAttribute?
    ensures AddedAttributes(calls) == []
  {
    if calls != [] {
      assert calls[0] in calls;
      NoAttributeAdded(calls[1..]);
    }
  }

  lemma AttributeCallsAdd(name: string, info: AttrInfo, values: AttrValues)
    ensures AddedAttributes(AttributeCalls(name, info, values)) == [name]
  {
    var rest := if ValuesLength(values) == 0 then [] else [SetAttribute(name, values)];
    NoAttributeAdded(rest);
    AddedAttributesConcat([AddAttribute(name, info)], rest);
    NoAttributeAdded([]);
    assert AddedAttributes([AddAttribute(name, info)]) == [name] + AddedAttributes([]);
  }

  /**
   * A completed export adds exactly the five attributes the downstream parser
   * expects, in the order `save` adds them.
   */
  lemma AttributeOrder(target: ExportTarget, frames: Frames)
    requires AllPositioned(frames)
    ensures !ExportPlan(target, frames).panics
    ensures AddedAttributes(ExportPlan(target, frames).calls) == ["P", "name", "time", "metadata", "kind"]
  {
    var pre, cols, fin := Prelude(target, frames), ColumnCalls(BuildTable(frames)), Finish(target);
    ColumnCallsAdd(BuildTable(frames));
    NoAttributeAdded(pre);
    NoAttributeAdded(fin);
    AddedAttributesConcat(pre, cols);
    AddedAttributesConcat(pre + cols, fin);
  }

  lemma ColumnCallsAdd(t: Table)
    ensures AddedAttributes(ColumnCalls(t)) == ["P", "name", "time", "metadata", "kind"]
  {
    var p := AttributeCalls("P", AttrInfo(DivTrunc(AsI32(|t.positions|), 3), 3, FloatStorage, PointTypeInfo), FloatValues(t.positions));
    var n := AttributeCalls("name", AttrInfo(AsI32(|t.names|), 1, StringStorage, NoTypeInfo), StringValues(t.names));
    var tm := AttributeCalls("time", AttrInfo(AsI32(|t.times|), 1, FloatStorage, NoTypeInfo), FloatValues(t.times));
    var m := AttributeCalls("metadata", AttrInfo(AsI32(|t.docs|), 1, StringStorage, NoTypeInfo), DocumentValues(t.docs));
    var k := AttributeCalls("kind", AttrInfo(AsI32(|t.kinds|), 1, StringStorage, NoTypeInfo), StringValues(t.kinds));
    AttributeCallsAdd("P", AttrInfo(DivTrunc(AsI32(|t.positions|), 3), 3, FloatStorage, PointTypeInfo), FloatValues(t.positions));
    AttributeCallsAdd("name", AttrInfo(AsI32(|t.names|), 1, StringStorage, NoTypeInfo), StringValues(t.names));
    AttributeCallsAdd("time", AttrInfo(AsI32(|t.times|), 1, FloatStorage, NoTypeInfo), FloatValues(t.times));
    AttributeCallsAdd("metadata", AttrInfo(AsI32(|t.docs|), 1, StringStorage, NoTypeInfo), DocumentValues(t.docs));
    AttributeCallsAdd("kind", AttrInfo(AsI32(|t.kinds|), 1, StringStorage, NoTypeInfo), StringValues(t.kinds));
    AddedAttributesConcat(p, n);
    AddedAttributesConcat(p + n, tm);
    AddedAttributesConcat(p + n + tm, m);
    AddedAttributesConcat(p + n + tm + m, k);
  }

  /** `usize as i32` changes nothing below 2^31. */
  lemma AsI32Small(n: nat)
    requires n < 0x8000_0000
    ensures AsI32(n) == n
  {
  }

  /**
   * While 3 * n fits in an i32, the `P` attribute's count, computed as
   * `len as i32 / 3` on the flattened floats, is the point count n.
   */
  lemma PositionCountIsPointCount(n: nat)
    requires 3 * n < 0x8000_0000
    ensures DivTrunc(AsI32(3 * n), 3) == AsI32(n) == n
  {
    AsI32Small(n);
    AsI32Small(3 * n);
  }

  /**
   * Concrete counts once the floats overflow an i32: with 715827883 entries
   * the part declares them all and `P` a negative count; with 1431655766
   * entries `P` declares 0; with 2^31 entries the part's count is negative too.
   */
  lemma PositionCountWraps()
    ensures AsI32(715827883) == 715827883
    ensures DivTrunc(AsI32(3 * 715827883), 3) == -715827882
    ensures DivTrunc(AsI32(3 * 1431655766), 3) == 0
    ensures AsI32(0x8000_0000) == -0x8000_0000
  {
  }

  /**
   * From 715827883 entries up to 2^31 - 1, the part's count is the entry count
   * but the `P` count never is: it is the entry count less 2^32 / 3, rounded
   * toward zero, and it is negative up to 1431655764 entries.
   */
  lemma PositionCountWrongPastBound(n: nat)
    requires 715827883 <= n < 0x8000_0000
    ensures AsI32(n) == n
    ensures AsI32(3 * n) == 3 * n - 0x1_0000_0000
    ensures DivTrunc(AsI32(3 * n), 3) != n
    ensures n <= 1431655764 <==> DivTrunc(AsI32(3 * n), 3) < 0
  {
    AsI32Small(n);
    var x := 3 * n + 0x8000_0000;
    assert 0 <= x - 0x1_0000_0000 < 0x1_0000_0000;
    assert x % 0x1_0000_0000 == (x - 0x1_0000_0000) % 0x1_0000_0000;
  }

  /** Values per row of an attribute: three floats for `P`, one value for the others. */
  function RowWidth(name: string): nat
  {
    if name == "P" then 3 else 1
  }

  /** Every attribute declares n rows, and every value array that is set holds n rows. */
  predicate CountsAgree(calls: seq<HostCall>, n: nat)
  {
    forall c | c in calls ::
      && (c.AddAttribute? ==> c.info.count == n)
      && (c.SetAttribute? ==> n > 0 && ValuesLength(c.values) == RowWidth(c.name) * n)
  }

  lemma AttributeCallsAgree(name: string, info: AttrInfo, values: AttrValues, n: nat)
    requires info.count == n && ValuesLength(values) == RowWidth(name) * n
    ensures CountsAgree(AttributeCalls(name, info, values), n)
  {
  }

  lemma CountsAgreeConcat(a: seq<HostCall>, b: seq<HostCall>, n: nat)
    requires CountsAgree(a, n) && CountsAgree(b, n)
    ensures CountsAgree(a + b, n)
  {
  }

  lemma ColumnCallsAgree(t: Table, n: nat)
    requires 3 * n < 0x8000_0000
    requires |t.positions| == 3 * n
    requires |t.names| == |t.times| == |t.docs| == |t.kinds| == n
    ensures CountsAgree(ColumnCalls(t), n)
  {
    PositionCountIsPointCount(n);
    AsI32Small(n);
    var p := AttributeCalls("P", AttrInfo(DivTrunc(AsI32(|t.positions|), 3), 3, FloatStorage, PointTypeInfo), FloatValues(t.positions));
    var nm := AttributeCalls("name", AttrInfo(AsI32(|t.names|), 1, StringStorage, NoTypeInfo), StringValues(t.names));
    var tm := AttributeCalls("time", AttrInfo(AsI32(|t.times|), 1, FloatStorage, NoTypeInfo), FloatValues(t.times));
    var m := AttributeCalls("metadata", AttrInfo(AsI32(|t.docs|), 1, StringStorage, NoTypeInfo), DocumentValues(t.docs));
    var k := AttributeCalls("kind", AttrInfo(AsI32(|t.kinds|), 1, StringStorage, NoTypeInfo), StringValues(t.kinds));
    AttributeCallsAgree("P", AttrInfo(DivTrunc(AsI32(|t.positions|), 3), 3, FloatStorage, PointTypeInfo), FloatValues(t.positions), n);
    AttributeCallsAgree("name", AttrInfo(AsI32(|t.names|), 1, StringStorage, NoTypeInfo), StringValues(t.names), n);
    AttributeCallsAgree("time", AttrInfo(AsI32(|t.times|), 1, FloatStorage, NoTypeInfo), FloatValues(t.times), n);
    AttributeCallsAgree("metadata", AttrInfo(AsI32(|t.docs|), 1, StringStorage, NoTypeInfo), DocumentValues(t.docs), n);
    AttributeCallsAgree("kind", AttrInfo(AsI32(|t.kinds|), 1, StringStorage, NoTypeInfo), StringValues(t.kinds), n);
    CountsAgreeConcat(p, nm, n);
    CountsAgreeConcat(p + nm, tm, n);
    CountsAgreeConcat(p + nm + tm, m, n);
    CountsAgreeConcat(p + nm + tm + m, k, n);
  }

  lemma ColumnCallsSet(t: Table)
    requires |t.names| > 0 && |t.positions| > 0 && |t.times| > 0 && |t.docs| > 0 && |t.kinds| > 0
    ensures SetAttribute("P", FloatValues(t.positions)) in ColumnCalls(t)
    ensures SetAttribute("name", StringValues(t.names)) in ColumnCalls(t)
    ensures SetAttribute("time", FloatValues(t.times)) in ColumnCalls(t)
    ensures SetAttribute("metadata", DocumentValues(t.docs)) in ColumnCalls(t)
    ensures SetAttribute("kind", StringValues(t.kinds)) in ColumnCalls(t)
  {
  }

  /**
   * Every count the export declares is the number of recorded entries: the
   * part's point count and each attribute's count. Each value array that is
   * set holds one row per entry (three floats for `P`), values are set only
   * when there is at least one entry, and then all five columns are set.
   */
  lemma ExportCountsAgree(target: ExportTarget, frames: Frames)
    requires AllPositioned(frames)
    requires 3 * PointCount(frames) < 0x8000_0000
    ensures ExportPlan(target, frames).calls[3] == SetPartInfo(PointCount(frames))
    ensures CountsAgree(ExportPlan(target, frames).calls, PointCount(frames))
    ensures PointCount(frames) > 0 ==>
      && SetAttribute("P", FloatValues(Positions(frames))) in ExportPlan(target, frames).calls
      && SetAttribute("name", StringValues(Names(frames))) in ExportPlan(target, frames).calls
      && SetAttribute("time", FloatValues(Times(frames))) in ExportPlan(target, frames).calls
      && SetAttribute("metadata", DocumentValues(MetadataColumn(frames))) in ExportPlan(target, frames).calls
      && SetAttribute("kind", StringValues(Kinds(frames))) in ExportPlan(target, frames).calls
  {
    var n := PointCount(frames);
    var t := BuildTable(frames);
    AsI32Small(n);
    assert Prelude(target, frames) == [CreateOutputNode(target), Cook, GetGeometry, SetPartInfo(n)];
    TableCallsAgree(target, t, n);
  }

  /** `ExportCountsAgree` for any table whose columns have the lengths `BuildTable` guarantees. */
  lemma TableCallsAgree(target: ExportTarget, t: Table, n: nat)
    requires 3 * n < 0x8000_0000
    requires |t.positions| == 3 * n
    requires |t.names| == |t.times| == |t.docs| == |t.kinds| == n
    ensures CountsAgree([CreateOutputNode(target), Cook, GetGeometry, SetPartInfo(n)] + ColumnCalls(t) + Finish(target), n)
    ensures n > 0 ==>
      && SetAttribute("P", FloatValues(t.positions)) in ColumnCalls(t)
      && SetAttribute("name", StringValues(t.names)) in ColumnCalls(t)
      && SetAttribute("time", FloatValues(t.times)) in ColumnCalls(t)
      && SetAttribute("metadata", DocumentValues(t.docs)) in ColumnCalls(t)
      && SetAttribute("kind", StringValues(t.kinds)) in ColumnCalls(t)
  {
    var pre, cols, fin := [CreateOutputNode(target), Cook, GetGeometry, SetPartInfo(n)], ColumnCalls(t), Finish(target);
    ColumnCallsAgree(t, n);
    assert CountsAgree(pre, n) && CountsAgree(fin, n);
    CountsAgreeConcat(pre, cols, n);
    CountsAgreeConcat(pre + cols, fin, n);
    if n > 0 {
      ColumnCallsSet(t);
    }
  }

  /**
   * With no entries the export still runs every structural step: a part of
   * zero points, all five attributes added with count 0, no values set, the
   * commit and, for a file, the write.
   */
  lemma EmptyExport(target: ExportTarget, frames: Frames)
    requires PointCount(frames) == 0
    ensures ExportPlan(target, frames) == Plan(
      [ CreateOutputNode(target), Cook, GetGeometry, SetPartInfo(0),
        AddAttribute("P", AttrInfo(0, 3, FloatStorage, PointTypeInfo)),
        AddAttribute("name", AttrInfo(0, 1, StringStorage, NoTypeInfo)),
        AddAttribute("time", AttrInfo(0, 1, FloatStorage, NoTypeInfo)),
        AddAttribute("metadata", AttrInfo(0, 1, StringStorage, NoTypeInfo)),
        AddAttribute("kind", AttrInfo(0, 1, StringStorage, NoTypeInfo)),
        Commit ]
      + (if target.File? then [SaveToFile(target.path)] else []),
      false)
  {
    NoEntriesNoRows(frames);
  }

  /**
   * When a recorded shape has no first element, `add_positions` panics: the
   * node is made and the part declared, and no attribute is added.
   */
  lemma PanicBeforeAttributes(target: ExportTarget, frames: Frames)
    requires !AllPositioned(frames)
    ensures ExportPlan(target, frames).panics
    ensures ExportPlan(target, frames).calls == [CreateOutputNode(target), Cook, GetGeometry, SetPartInfo(AsI32(PointCount(frames)))]
  {
  }
}

=== FILE: global.dfy ===
/**
 * The process-wide logger behind the free functions of
 * src/houdini_debug_logger.rs (`init_houlog`, `init_houlog_live`, `houlog`,
 * `houlog_next_frame`, `save_houlog`): a slot that is set at most once. A
 * rejected initialisation still builds a logger, and dropping it runs that
 * logger's last save.
 */
module Global {
  import opened Wrappers
  import opened Loggable
  import opened Columns
  import opened Export
  import opened DebugLogger

  class Registry {
    /** The `OnceLock`'s content; `null` until the first successful initialisation. */
    var installed: Logger?

    ghost predicate Valid()
      reads this, installed
    {
      installed != null ==> installed.Valid()
    }

    constructor()
      ensures Valid() && installed == null
    {
      installed := null;
    }

    /**
     * `init_houlog`: install a file logger. When one is already installed it
     * stays, the call fails, and the rejected logger is dropped: being dirty
     * and empty, it exports an empty recording to `path` (`dropHost` is the
     * host's answer to that export). That export has every entry positioned
     * and no live-session node to look up, so it cannot panic.
     */
    method InitHoulog(path: string, dropHost: HostAnswer) returns (r: Outcome, performed: seq<HostCall>)
      requires Valid()
      modifies this
      ensures Valid()
      ensures old(installed) == null ==>
        && r == Success && performed == [] && installed != null && fresh(installed)
        && installed.target == File(path) && installed.frames == [[]]
        && installed.modified && !installed.poisoned
      ensures old(installed) != null ==>
        && r == Failure(AlreadyInitialized) && installed == old(installed) && unchanged(installed)
        && performed == Execute(ExportPlan(File(path), [[]]), dropHost).performed
    {
      var logger := new Logger.WithFile(path);
      if installed == null {
        installed := logger;
        return Success, [];
      }
      var panicked;
      panicked, performed := logger.Drop(dropHost);
      r := if panicked then Panic else Failure(AlreadyInitialized);
    }

    /**
     * `init_houlog_live`: the session is obtained first, so a failed
     * connection is reported even when a logger is already installed. A
     * rejected live logger is dropped like a rejected file logger, but its
     * export can panic on a missing recordings node, and that panic unwinds
     * out of `init_houlog_live`.
     */
    method InitHoulogLive(session: Option<Session>, connect: Endpoint -> Option<Session>, dropHost: HostAnswer)
      returns (r: Outcome, performed: seq<HostCall>)
      requires Valid()
      modifies this
      ensures Valid()
      ensures session.None? && connect(DefaultEndpoint).None? ==>
        r == Failure(ConnectionFailed) && performed == [] && installed == old(installed)
        && (installed != null ==> unchanged(installed))
      ensures (session.Some? || connect(DefaultEndpoint).Some?) && old(installed) == null ==>
        && r == Success && performed == [] && installed != null && fresh(installed)
        && installed.target == LiveSession(
             if session.Some? then session.value else connect(DefaultEndpoint).value,
             RecordingsPath, RecordingNodeName)
        && installed.frames == [[]] && installed.modified && !installed.poisoned
      ensures (session.Some? || connect(DefaultEndpoint).Some?) && old(installed) != null ==>
        && installed == old(installed) && unchanged(installed)
        && var dropped := Execute(ExportPlan(LiveSession(
             if session.Some? then session.value else connect(DefaultEndpoint).value,
             RecordingsPath, RecordingNodeName), [[]]), dropHost);
           && performed == dropped.performed
           && r == (if dropped.outcome == Panic then Panic else Failure(AlreadyInitialized))
    {
      var built, logger := Logger.NewWithLiveSession(session, connect);
      if logger == null {
        return built, [];
      }
      if installed == null {
        installed := logger;
        return Success, [];
      }
      var panicked;
      panicked, performed := logger.Drop(dropHost);
      r := if panicked then Panic else Failure(AlreadyInitialized);
    }

    /**
     * `houlog`: without a logger nothing happens; otherwise the entry is
     * logged, and a failure to log is a panic (the result is unwrapped).
     */
    method Houlog(name: string, v: Value) returns (r: Outcome)
      requires Valid()
      modifies installed
      ensures Valid()
      ensures installed == null ==> r == Success
      ensures installed != null && old(installed.poisoned) ==> r == Panic && unchanged(installed)
      ensures installed != null && !old(installed.poisoned) ==>
        && r == Success && installed.modified && !installed.poisoned
        && installed.frames == AppendEntry(old(installed.frames), Entry(name, v))
    {
      if installed == null {
        return Success;
      }
      var logged := installed.Log(name, v);
      r := if logged == Success then Success else Panic;
    }

    /** `houlog_next_frame`: without a logger nothing happens and the call succeeds. */
    method HoulogNextFrame() returns (r: Outcome)
      requires Valid()
      modifies installed
      ensures Valid()
      ensures installed == null ==> r == Success
      ensures installed != null && old(installed.poisoned) ==> r == Failure(LockPoisoned) && unchanged(installed)
      ensures installed != null && !old(installed.poisoned) ==>
        && r == Success && installed.modified && !installed.poisoned
        && installed.frames == old(installed.frames) + [[]]
    {
      if installed == null {
        return Success;
      }
      r := installed.NextFrame();
    }

    /**
     * `save_houlog`: without a logger nothing happens and the call succeeds;
     * otherwise it is the logger's `save`.
     */
    method SaveHoulog(host: HostAnswer) returns (r: Outcome, performed: seq<HostCall>)
      requires Valid()
      modifies installed
      ensures Valid()
      ensures installed == null ==> r == Success && performed == []
      ensures installed != null && (old(installed.poisoned) || !old(installed.modified)) ==>
        && r == (if old(installed.poisoned) then Failure(LockPoisoned) else Success)
        && performed == [] && unchanged(installed)
      ensures installed != null && !old(installed.poisoned) && old(installed.modified) ==>
        && Run(r, performed) == Execute(ExportPlan(installed.target, old(installed.frames)), host)
        && !installed.modified && installed.frames == old(installed.frames)
        && installed.poisoned == (r == Panic)
    {
      if installed == null {
        return Success, [];
      }
      r, performed := installed.Save(host);
    }
  }

  /**
   * Logging one value and saving twice exports once: the first save writes
   * the one-row recording, the second finds nothing new and does nothing,
   * whatever the host answered the first time. The second save succeeds
   * unless the first one panicked and poisoned the lock.
   */
  method SecondSaveDoesNothing(path: string, name: string, v: Value, host: HostAnswer)
    returns (r1: Outcome, first: seq<HostCall>, r2: Outcome, second: seq<HostCall>)
    ensures Run(r1, first) == Execute(ExportPlan(File(path), [[Entry(name, v)]]), host)
    ensures second == []
    ensures r2 == (if r1 == Panic then Failure(LockPoisoned) else Success)
  {
    var registry := new Registry();
    var _, _ := registry.InitHoulog(path, AcceptsAll);
    var _ := registry.Houlog(name, v);
    var empty: Frames := [[]];
    assert empty[..0] == [] && empty[0] + [Entry(name, v)] == [Entry(name, v)];
    assert AppendEntry(empty, Entry(name, v)) == [[Entry(name, v)]];
    r1, first := registry.SaveHoulog(host);
    r2, second := registry.SaveHoulog(host);
  }
}

=== FILE: loggable.dfy ===
/**
 * The closed set of values the debug logger can record (src/loggable.rs).
 * Every value answers three queries: a `Kind` tag that the downstream parser
 * uses as a discriminator, a representative `Position`, and a `Metadata`
 * document holding its full payload.
 *
 * Coordinates are `real`: the f32 rounding of the source is not modelled.
 */
module Loggable {
  import opened Wrappers
  import opened Document

  datatype Vec3 = Vec3(x: real, y: real, z: real)
  datatype Vec4 = Vec4(x: real, y: real, z: real, w: real)
  /** A 4x4 transform kept as its four column axes, as glam's `Mat4` keeps it. */
  datatype Mat4 = Mat4(xAxis: Vec4, yAxis: Vec4, zAxis: Vec4, wAxis: Vec4)
  datatype Quat = Quat(x: real, y: real, z: real, w: real)

  /** The source's `i32` (armature parent indices). */
  newtype Int32 = x: int | -0x8000_0000 <= x < 0x8000_0000

  const Origin: Vec3 := Vec3(0.0, 0.0, 0.0)

  /** glam's `Vec4::truncate`: drop the w component. */
  function Truncate(v: Vec4): Vec3
  {
    Vec3(v.x, v.y, v.z)
  }

  function Vec3Array(v: Vec3): seq<real>
  {
    [v.x, v.y, v.z]
  }

  function Vec4Array(v: Vec4): seq<real>
  {
    [v.x, v.y, v.z, v.w]
  }

  /** glam's `Mat4::to_cols_array`: the x, y, z and w axes one after another. */
  function ColsArray(m: Mat4): (a: seq<real>)
    ensures |a| == 16
  {
    Vec4Array(m.xAxis) + Vec4Array(m.yAxis) + Vec4Array(m.zAxis) + Vec4Array(m.wAxis)
  }

  /** `(a + b) / 2.0`, computed exactly. */
  function Midpoint(a: Vec3, b: Vec3): Vec3
  {
    Vec3((a.x + b.x) / 2.0, (a.y + b.y) / 2.0, (a.z + b.z) / 2.0)
  }

  /** One constructor per `DebugLoggable` implementation of the source. */
  datatype Value =
    | Point(p: Vec3)                  // glam Vec3
    | Transform(m: Mat4)              // glam Mat4
    | Rotation(q: Quat)               // glam Quat
    | Scalar(f: real)                 // f32
    | Polyline(points: seq<Vec3>)
    | Polygon(points: seq<Vec3>)
    | Mesh(vertices: seq<Vec3>, indices: seq<nat>, indexCounts: seq<nat>)
    | Armature(names: seq<string>, parents: seq<Int32>, xforms: seq<Mat4>)
    | Capsule(pointA: Vec3, pointB: Vec3, radius: real)
    | Sphere(center: Vec3, radius: real)

  /** The variant of a value, without its data. */
  datatype Variant =
    | Vec3Variant | Mat4Variant | QuatVariant | F32Variant | PolylineVariant
    | PolygonVariant | MeshVariant | ArmatureVariant | CapsuleVariant | SphereVariant

  function VariantOf(v: Value): Variant
  {
    match v
    case Point(_) => Vec3Variant
    case Transform(_) => Mat4Variant
    case Rotation(_) => QuatVariant
    case Scalar(_) => F32Variant
    case Polyline(_) => PolylineVariant
    case Polygon(_) => PolygonVariant
    case Mesh(_, _, _) => MeshVariant
    case Armature(_, _, _) => ArmatureVariant
    case Capsule(_, _, _) => CapsuleVariant
    case Sphere(_, _) => SphereVariant
  }

  /** The tag each implementation's `kind` returns. */
  function KindName(t: Variant): string
  {
    match t
    case Vec3Variant => "vec3"
    case Mat4Variant => "mat4"
    case QuatVariant => "quat"
    case F32Variant => "float"
    case PolylineVariant => "line"
    case PolygonVariant => "polygon"
    case MeshVariant => "mesh"
    case ArmatureVariant => "armature"
    case CapsuleVariant => "capsule"
    case SphereVariant => "sphere"
  }

  /** `kind`: a constant of the variant, whatever the value's data. */
  function Kind(v: Value): string
  {
    KindName(VariantOf(v))
  }

  /**
   * The kind tag is a faithful discriminator: two values have the same kind
   * exactly when they are the same variant.
   */
  lemma KindIdentifiesVariant(a: Value, b: Value)
    ensures Kind(a) == Kind(b) <==> VariantOf(a) == VariantOf(b)
  {
    var s, t := VariantOf(a), VariantOf(b);
    if s != t {
      KindNamesDiffer(s, t);
    }
  }

  lemma KindNamesDiffer(s: Variant, t: Variant)
    requires s != t
    ensures KindName(s) != KindName(t)
  {
    var ks, kt := KindName(s), KindName(t);
    if |ks| == |kt| {
      assert ks[0] != kt[0] || ks[1] != kt[1];
    }
  }

  /** The shapes whose position is their first element need at least one. */
  predicate HasPosition(v: Value)
  {
    match v
    case Polyline(pts) => |pts| > 0
    case Polygon(pts) => |pts| > 0
    case Mesh(vs, _, _) => |vs| > 0
    case Armature(_, _, xs) => |xs| > 0
    case _ => true
  }

  /** `position`; the source panics on an index out of bounds where HasPosition fails. */
  function Position(v: Value): Vec3
    requires HasPosition(v)
  {
    match v
    case Point(p) => p
    case Transform(m) => Truncate(m.wAxis)
    case Rotation(_) => Origin
    case Scalar(_) => Origin
    case Polyline(pts) => pts[0]
    case Polygon(pts) => pts[0]
    case Mesh(vs, _, _) => vs[0]
    case Armature(_, _, xs) => Truncate(xs[0].wAxis)
    case Capsule(a, b, _) => Midpoint(a, b)
    case Sphere(c, _) => c
  }

  function Xs(pts: seq<Vec3>): seq<real>
  {
    seq(|pts|, i requires 0 <= i < |pts| => pts[i].x)
  }

  function Ys(pts: seq<Vec3>): seq<real>
  {
    seq(|pts|, i requires 0 <= i < |pts| => pts[i].y)
  }

  function Zs(pts: seq<Vec3>): seq<real>
  {
    seq(|pts|, i requires 0 <= i < |pts| => pts[i].z)
  }

  /** The `x`, `y` and `z` arrays of polylines, polygons and meshes. */
  function CoordinateFields(pts: seq<Vec3>): map<string, Json>
  {
    map["x" := FloatArray(Xs(pts)), "y" := FloatArray(Ys(pts)), "z" := FloatArray(Zs(pts))]
  }

  /** The armature's transforms, each as its 16 column-major entries, back to back. */
  function FlattenCols(xs: seq<Mat4>): (r: seq<real>)
    ensures |r| == 16 * |xs|
  {
    if xs == [] then [] else ColsArray(xs[0]) + FlattenCols(xs[1..])
  }

  function Int32s(xs: seq<Int32>): seq<int>
  {
    seq(|xs|, i requires 0 <= i < |xs| => xs[i] as int)
  }

  /** The keys the parser finds in the metadata of each kind. */
  function MetadataKeys(t: Variant): set<string>
  {
    match t
    case Vec3Variant => {"pt"}
    case Mat4Variant => {"xform"}
    case QuatVariant => {"quat"}
    case F32Variant => {"float"}
    case PolylineVariant => {"x", "y", "z"}
    case PolygonVariant => {"x", "y", "z"}
    case MeshVariant => {"x", "y", "z", "i", "c"}
    case ArmatureVariant => {"names", "xforms", "parents"}
    case CapsuleVariant => {"a", "b", "r"}
    case SphereVariant => {"radius"}
  }

  /**
   * `as_json`, as a document rather than its text: an object whose keys depend
   * only on the kind, never on the value's data.
   */
  function Metadata(v: Value): (r: Json)
    ensures r.Obj? && r.fields.Keys == MetadataKeys(VariantOf(v)) && r.fields.Keys != {}
  {
    match v
    case Point(p) => Obj(map["pt" := FloatArray(Vec3Array(p))])
    case Transform(m) => Obj(map["xform" := FloatArray(ColsArray(m))])
    case Rotation(q) => Obj(map["quat" := FloatArray([q.x, q.y, q.z, q.w])])
    case Scalar(f) => Obj(map["float" := Float(f)])
    case Polyline(pts) => Obj(CoordinateFields(pts))
    case Polygon(pts) => Obj(CoordinateFields(pts))
    case Mesh(vs, ix, cs) => Obj(CoordinateFields(vs)["i" := IntArray(ix)]["c" := IntArray(cs)])
    case Armature(ns, ps, xs) =>
      Obj(map["names" := StrArray(ns), "xforms" := FloatArray(FlattenCols(xs)), "parents" := IntArray(Int32s(ps))])
    case Capsule(a, b, r) => Obj(map["a" := FloatArray(Vec3Array(a)), "b" := FloatArray(Vec3Array(b)), "r" := Float(r)])
    case Sphere(_, r) => Obj(map["radius" := Float(r)])
  }

  /** The convenience type that `IntoLoggable` turns into a two-point polyline. */
  datatype Line = Line(start: Vec3, end: Vec3)

  function IntoLoggable(l: Line): Value
  {
    Polyline([l.start, l.end])
  }

  /** A Line's value is the polyline through its start and end, so its kind is "line" and its position is the start. */
  lemma LineBecomesTwoPointPolyline(l: Line)
    ensures IntoLoggable(l).Polyline? && IntoLoggable(l).points == [l.start, l.end]
    ensures Kind(IntoLoggable(l)) == "line"
    ensures HasPosition(IntoLoggable(l)) && Position(IntoLoggable(l)) == l.start
  {
  }

  /** A matrix's position is entries 12 to 14 of its exported `xform` array, the first three of the w axis. */
  lemma TransformPositionIsTranslation(m: Mat4)
    ensures Metadata(Transform(m)).fields.Keys == {"xform"}
    ensures AsFloats(Metadata(Transform(m)).fields["xform"]) == Some(ColsArray(m))
    ensures Vec3Array(Position(Transform(m))) == ColsArray(m)[12..15]
  {
    FloatArrayRoundTrip(ColsArray(m));
  }

  /**
   * Polyline and polygon metadata: exactly the keys x, y and z, each an array
   * with one entry per point, in point order.
   */
  lemma PointArraysMetadata(v: Value)
    requires v.Polyline? || v.Polygon?
    ensures Metadata(v).fields.Keys == {"x", "y", "z"}
    ensures AsFloats(Metadata(v).fields["x"]) == Some(Xs(v.points))
    ensures AsFloats(Metadata(v).fields["y"]) == Some(Ys(v.points))
    ensures AsFloats(Metadata(v).fields["z"]) == Some(Zs(v.points))
    ensures |Metadata(v).fields["x"].items| == |Metadata(v).fields["y"].items| == |Metadata(v).fields["z"].items| == |v.points|
    ensures forall i | 0 <= i < |v.points| ::
      && Metadata(v).fields["x"].items[i] == Float(v.points[i].x)
      && Metadata(v).fields["y"].items[i] == Float(v.points[i].y)
      && Metadata(v).fields["z"].items[i] == Float(v.points[i].z)
  {
    FloatArrayRoundTrip(Xs(v.points));
    FloatArrayRoundTrip(Ys(v.points));
    FloatArrayRoundTrip(Zs(v.points));
  }

  /**
   * Mesh metadata: per-vertex x, y and z arrays, and `i` and `c` that read
   * back as `indices` and `index_counts` verbatim.
   */
  lemma MeshMetadata(v: Value)
    requires v.Mesh?
    ensures Metadata(v).fields.Keys == {"x", "y", "z", "i", "c"}
    ensures AsFloats(Metadata(v).fields["x"]) == Some(Xs(v.vertices))
    ensures AsFloats(Metadata(v).fields["y"]) == Some(Ys(v.vertices))
    ensures AsFloats(Metadata(v).fields["z"]) == Some(Zs(v.vertices))
    ensures AsInts(Metadata(v).fields["i"]) == Some(v.indices)
    ensures AsInts(Metadata(v).fields["c"]) == Some(v.indexCounts)
  {
    FloatArrayRoundTrip(Xs(v.vertices));
    FloatArrayRoundTrip(Ys(v.vertices));
    FloatArrayRoundTrip(Zs(v.vertices));
    IntArrayRoundTrip(v.indices);
    IntArrayRoundTrip(v.indexCounts);
  }

  /** Entry `c` of the `j`-th transform sits at index 16 * j + c of the flattened array. */
  lemma {:induction false} FlattenColsAt(xs: seq<Mat4>, j: nat, c: nat)
    requires j < |xs| && c < 16
    ensures FlattenCols(xs)[16 * j + c] == ColsArray(xs[j])[c]
  {
    if j > 0 {
      FlattenColsAt(xs[1..], j - 1, c);
      assert FlattenCols(xs) == ColsArray(xs[0]) + FlattenCols(xs[1..]);
    }
  }

  /**
   * Armature metadata: `names` and `parents` copied verbatim, and `xforms`
   * holding 16 entries per transform, each transform's column-major array in order.
   */
  lemma ArmatureMetadata(v: Value)
    requires v.Armature?
    ensures Metadata(v).fields.Keys == {"names", "xforms", "parents"}
    ensures AsStrs(Metadata(v).fields["names"]) == Some(v.names)
    ensures AsInts(Metadata(v).fields["parents"]) == Some(Int32s(v.parents))
    ensures AsFloats(Metadata(v).fields["xforms"]) == Some(FlattenCols(v.xforms))
    ensures |Metadata(v).fields["xforms"].items| == 16 * |v.xforms|
    ensures forall j, c | 0 <= j < |v.xforms| && 0 <= c < 16 ::
      Metadata(v).fields["xforms"].items[16 * j + c] == Float(ColsArray(v.xforms[j])[c])
  {
    StrArrayRoundTrip(v.names);
    IntArrayRoundTrip(Int32s(v.parents));
    FloatArrayRoundTrip(FlattenCols(v.xforms));
    forall j, c | 0 <= j < |v.xforms| && 0 <= c < 16
      ensures Metadata(v).fields["xforms"].items[16 * j + c] == Float(ColsArray(v.xforms[j])[c])
    {
      FlattenColsAt(v.xforms, j, c);
    }
  }

  /** Capsule metadata repeats both end points and the radius; its position is their midpoint. */
  lemma CapsuleMetadata(a: Vec3, b: Vec3, r: real)
    ensures Metadata(Capsule(a, b, r)).fields.Keys == {"a", "b", "r"}
    ensures AsFloats(Metadata(Capsule(a, b, r)).fields["a"]) == Some([a.x, a.y, a.z])
    ensures AsFloats(Metadata(Capsule(a, b, r)).fields["b"]) == Some([b.x, b.y, b.z])
    ensures Metadata(Capsule(a, b, r)).fields["r"] == Float(r)
    ensures Position(Capsule(a, b, r)) == Midpoint(a, b)
  {
    FloatArrayRoundTrip(Vec3Array(a));
    FloatArrayRoundTrip(Vec3Array(b));
  }

  /** Sphere metadata holds only the radius: the center reaches the export only as the position. */
  lemma SphereCenterOnlyInPosition(c1: Vec3, c2: Vec3, r: real)
    ensures Metadata(Sphere(c1, r)) == Metadata(Sphere(c2, r))
    ensures Metadata(Sphere(c1, r)).fields.Keys == {"radius"}
    ensures Position(Sphere(c1, r)) == c1
  {
  }

  // A consumer of the export, keyed on the kind tag: it rebuilds a value from
  // the kind, the metadata document and the position.

  function FloatsField(j: Json, key: string): Option<seq<real>>
  {
    var f :- Field(j, key);
    AsFloats(f)
  }

  function Vec3Field(j: Json, key: string): Option<Vec3>
  {
    var a :- FloatsField(j, key);
    if |a| == 3 then Some(Vec3(a[0], a[1], a[2])) else None
  }

  function FloatField(j: Json, key: string): Option<real>
  {
    var f :- Field(j, key);
    AsFloat(f)
  }

  function PointsField(j: Json): Option<seq<Vec3>>
  {
    var xs :- FloatsField(j, "x");
    var ys :- FloatsField(j, "y");
    var zs :- FloatsField(j, "z");
    if |xs| == |ys| == |zs|
    then Some(seq(|xs|, i requires 0 <= i < |xs| && |xs| == |ys| == |zs| => Vec3(xs[i], ys[i], zs[i])))
    else None
  }

  function MatOf(a: seq<real>): Mat4
    requires |a| == 16
  {
    Mat4(Vec4(a[0], a[1], a[2], a[3]), Vec4(a[4], a[5], a[6], a[7]),
         Vec4(a[8], a[9], a[10], a[11]), Vec4(a[12], a[13], a[14], a[15]))
  }

  /** Splits a flat array into 16-entry column-major transforms. */
  function Chunks(a: seq<real>): Option<seq<Mat4>>
    decreases |a|
  {
    if |a| == 0 then Some([])
    else if |a| < 16 then None
    else
      var rest :- Chunks(a[16..]);
      Some([MatOf(a[..16])] + rest)
  }

  function AsNats(xs: seq<int>): Option<seq<nat>>
  {
    if forall i :: 0 <= i < |xs| ==> 0 <= xs[i]
    then Some(seq(|xs|, i requires 0 <= i < |xs| && 0 <= xs[i] => xs[i] as nat))
    else None
  }

  function AsInt32s(xs: seq<int>): Option<seq<Int32>>
  {
    if forall i :: 0 <= i < |xs| ==> -0x8000_0000 <= xs[i] < 0x8000_0000
    then Some(seq(|xs|, i requires 0 <= i < |xs| && -0x8000_0000 <= xs[i] < 0x8000_0000 => xs[i] as Int32))
    else None
  }

  function NatsField(j: Json, key: string): Option<seq<nat>>
  {
    var f :- Field(j, key);
    var xs :- AsInts(f);
    AsNats(xs)
  }

  /** Reads a kind tag back as the variant it names. */
  function VariantNamed(kind: string): Option<Variant>
  {
    if kind == "vec3" then Some(Vec3Variant)
    else if kind == "mat4" then Some(Mat4Variant)
    else if kind == "quat" then Some(QuatVariant)
    else if kind == "float" then Some(F32Variant)
    else if kind == "line" then Some(PolylineVariant)
    else if kind == "polygon" then Some(PolygonVariant)
    else if kind == "mesh" then Some(MeshVariant)
    else if kind == "armature" then Some(ArmatureVariant)
    else if kind == "capsule" then Some(CapsuleVariant)
    else if kind == "sphere" then Some(SphereVariant)
    else None
  }

  /** Rebuilds a value from what the export writes for it; None for anything malformed. */
  function Decode(kind: string, meta: Json, position: Vec3): Option<Value>
  {
    var t :- VariantNamed(kind);
    DecodeVariant(t, meta, position)
  }

  function DecodeVariant(t: Variant, meta: Json, position: Vec3): Option<Value>
  {
    match t
    case Vec3Variant =>
      var p :- Vec3Field(meta, "pt");
      Some(Point(p))
    case Mat4Variant =>
      var a :- FloatsField(meta, "xform");
      if |a| == 16 then Some(Transform(MatOf(a))) else None
    case QuatVariant =>
      var a :- FloatsField(meta, "quat");
      if |a| == 4 then Some(Rotation(Quat(a[0], a[1], a[2], a[3]))) else None
    case F32Variant =>
      var f :- FloatField(meta, "float");
      Some(Scalar(f))
    case PolylineVariant =>
      var pts :- PointsField(meta);
      Some(Polyline(pts))
    case PolygonVariant =>
      var pts :- PointsField(meta);
      Some(Polygon(pts))
    case MeshVariant =>
      var pts :- PointsField(meta);
      var ix :- NatsField(meta, "i");
      var cs :- NatsField(meta, "c");
      Some(Mesh(pts, ix, cs))
    case ArmatureVariant =>
      var nsj :- Field(meta, "names");
      var ns :- AsStrs(nsj);
      var a :- FloatsField(meta, "xforms");
      var xs :- Chunks(a);
      var psj :- Field(meta, "parents");
      var pis :- AsInts(psj);
      var ps :- AsInt32s(pis);
      Some(Armature(ns, ps, xs))
    case CapsuleVariant =>
      var a :- Vec3Field(meta, "a");
      var b :- Vec3Field(meta, "b");
      var r :- FloatField(meta, "r");
      Some(Capsule(a, b, r))
    case SphereVariant =>
      var r :- FloatField(meta, "radius");
      Some(Sphere(position, r))
  }

  /** Every tag names back its own variant. */
  lemma VariantNamedKindName(t: Variant)
    ensures VariantNamed(KindName(t)) == Some(t)
  {
    forall w: Variant | w != t ensures KindName(w) != KindName(t) {
      KindNamesDiffer(w, t);
    }
  }

  lemma {:induction false} ChunksOfFlattenCols(xs: seq<Mat4>)
    ensures Chunks(FlattenCols(xs)) == Some(xs)
  {
    if xs != [] {
      var a := FlattenCols(xs);
      assert a[..16] == ColsArray(xs[0]);
      assert a[16..] == FlattenCols(xs[1..]);
      ChunksOfFlattenCols(xs[1..]);
      assert [xs[0]] + xs[1..] == xs;
    }
  }

  lemma AsNatsOfNats(xs: seq<nat>)
    ensures AsNats(xs) == Some(xs)
  {
    var r := AsNats(xs);
    assert r.Some? && |r.value| == |xs|;
    assert forall i :: 0 <= i < |xs| ==> r.value[i] == xs[i];
    assert r.value == xs;
  }

  lemma AsInt32sOfInt32s(xs: seq<Int32>)
    ensures AsInt32s(Int32s(xs)) == Some(xs)
  {
    var r := AsInt32s(Int32s(xs));
    assert r.Some? && |r.value| == |xs|;
    assert forall i :: 0 <= i < |xs| ==> r.value[i] == xs[i];
    assert r.value == xs;
  }

  lemma PointsFieldOfCoordinates(pts: seq<Vec3>)
    ensures PointsField(Obj(CoordinateFields(pts))) == Some(pts)
  {
    FloatArrayRoundTrip(Xs(pts));
    FloatArrayRoundTrip(Ys(pts));
    FloatArrayRoundTrip(Zs(pts));
    var r := PointsField(Obj(CoordinateFields(pts)));
    assert r.Some? && |r.value| == |pts|;
    assert forall i :: 0 <= i < |pts| ==> r.value[i] == pts[i];
    assert r.value == pts;
  }

  lemma DecodeMesh(v: Value, position: Vec3)
    requires v.Mesh?
    ensures DecodeVariant(MeshVariant, Metadata(v), position) == Some(v)
  {
    var m := Metadata(v);
    MeshMetadata(v);
    assert Field(m, "x") == Field(Obj(CoordinateFields(v.vertices)), "x");
    assert Field(m, "y") == Field(Obj(CoordinateFields(v.vertices)), "y");
    assert Field(m, "z") == Field(Obj(CoordinateFields(v.vertices)), "z");
    PointsFieldOfCoordinates(v.vertices);
    AsNatsOfNats(v.indices);
    AsNatsOfNats(v.indexCounts);
  }

  lemma DecodeArmature(v: Value, position: Vec3)
    requires v.Armature?
    ensures DecodeVariant(ArmatureVariant, Metadata(v), position) == Some(v)
  {
    StrArrayRoundTrip(v.names);
    FloatArrayRoundTrip(FlattenCols(v.xforms));
    ChunksOfFlattenCols(v.xforms);
    IntArrayRoundTrip(Int32s(v.parents));
    AsInt32sOfInt32s(v.parents);
  }

  lemma DecodeCapsule(v: Value, position: Vec3)
    requires v.Capsule?
    ensures DecodeVariant(CapsuleVariant, Metadata(v), position) == Some(v)
  {
    FloatArrayRoundTrip(Vec3Array(v.pointA));
    FloatArrayRoundTrip(Vec3Array(v.pointB));
  }

  /**
   * Everything a value carries survives the export: its kind, metadata and
   * position are enough to rebuild it. The sphere is the one shape that needs
   * the position for that, since its metadata omits the center.
   */
  lemma DecodeAfterExport(v: Value)
    requires HasPosition(v)
    ensures Decode(Kind(v), Metadata(v), Position(v)) == Some(v)
  {
    VariantNamedKindName(VariantOf(v));
    match v
    case Point(p) =>
      FloatArrayRoundTrip(Vec3Array(p));
    case Transform(t) =>
      FloatArrayRoundTrip(ColsArray(t));
    case Rotation(q) =>
      FloatArrayRoundTrip([q.x, q.y, q.z, q.w]);
    case Scalar(_) =>
    case Polyline(pts) =>
      PointsFieldOfCoordinates(pts);
    case Polygon(pts) =>
      PointsFieldOfCoordinates(pts);
    case Mesh(_, _, _) =>
      DecodeMesh(v, Position(v));
    case Armature(_, _, _) =>
      DecodeArmature(v, Position(v));
    case Capsule(_, _, _) =>
      DecodeCapsule(v, Position(v));
    case Sphere(_, _) =>
  }
}

=== FILE: logger.dfy ===
/**
 * The logger itself (src/houdini_debug_logger.rs, `HoudiniDebugLogger` and
 * `LoggerData`): the frames recorded so far, a dirty flag, and the export
 * target fixed at construction. The mutex around the data is modelled only by
 * what a panic while holding it leaves behind: a poisoned lock, after which
 * every operation fails with "error during lock".
 */
module DebugLogger {
  import opened Wrappers
  import opened Loggable
  import opened Columns
  import opened Export

  class Logger {
    /** Set by every log and new frame, cleared when a save starts. */
    var modified: bool
    /** One list of entries per frame; the last one is the active frame. */
    var frames: Frames
    /** The mutex was held by a thread that panicked. */
    var poisoned: bool
    const target: ExportTarget

    /** There is always an active frame: the logger starts with one and only ever appends. */
    ghost predicate Valid()
      reads this
    {
      |frames| >= 1
    }

    /** `new_with_file`: one empty frame, dirty, exporting to a file. */
    constructor WithFile(path: string)
      ensures Valid()
      ensures target == File(path)
      ensures frames == [[]] && modified && !poisoned
    {
      target := File(path);
      frames := [[]];
      modified := true;
      poisoned := false;
    }

    /** The live-session half of `new_with_live_session`, once a session is at hand. */
    constructor WithSession(session: Session)
      ensures Valid()
      ensures target == LiveSession(session, RecordingsPath, RecordingNodeName)
      ensures frames == [[]] && modified && !poisoned
    {
      target := LiveSession(session, RecordingsPath, RecordingNodeName);
      frames := [[]];
      modified := true;
      poisoned := false;
    }

    /**
     * `new_with_live_session`: use the given session, or connect to the
     * default endpoint; `connect` stands for the host's answer to that
     * connection. A failed connection is returned and no logger is built.
     */
    static method NewWithLiveSession(session: Option<Session>, connect: Endpoint -> Option<Session>)
      returns (r: Outcome, logger: Logger?)
      ensures session.Some? ==> r == Success && logger != null && logger.target == LiveSession(session.value, RecordingsPath, RecordingNodeName)
      ensures session.None? && connect(DefaultEndpoint).None? ==> r == Failure(ConnectionFailed) && logger == null
      ensures session.None? && connect(DefaultEndpoint).Some? ==>
        r == Success && logger != null && logger.target == LiveSession(connect(DefaultEndpoint).value, RecordingsPath, RecordingNodeName)
      ensures logger != null ==>
        && fresh(logger) && logger.Valid()
        && logger.frames == [[]] && logger.modified && !logger.poisoned
    {
      var s: Session;
      match session {
        case Some(given) =>
          s := given;
        case None =>
          var connected := connect(DefaultEndpoint);
          if connected.None? {
            return Failure(ConnectionFailed), null;
          }
          s := connected.value;
      }
      logger := new Logger.WithSession(s);
      r := Success;
    }

    /** `next_frame`: open a new, empty active frame; no column gains a row. */
    method NextFrame() returns (r: Outcome)
      modifies this
      ensures old(poisoned) ==> r == Failure(LockPoisoned) && unchanged(this)
      ensures !old(poisoned) ==> r == Success && frames == old(frames) + [[]] && modified && !poisoned
      ensures old(Valid()) ==> Valid()
      ensures PointCount(frames) == PointCount(old(frames))
      ensures Names(frames) == Names(old(frames)) && Kinds(frames) == Kinds(old(frames))
      ensures Times(frames) == Times(old(frames)) && MetadataColumn(frames) == MetadataColumn(old(frames))
      ensures AllPositioned(old(frames)) ==> AllPositioned(frames) && Positions(frames) == Positions(old(frames))
    {
      if poisoned {
        return Failure(LockPoisoned);
      }
      NextFrameAddsNoRow(frames);
      modified := true;
      frames := frames + [[]];
      r := Success;
    }

    /**
     * `log`: append an entry to the active frame. The logger is marked dirty
     * even when no active frame is found; with `Valid()` that never happens,
     * and the entry becomes the last row of every column, timed at the
     * active frame's number.
     */
    method Log(name: string, v: Value) returns (r: Outcome)
      modifies this
      ensures old(poisoned) ==> r == Failure(LockPoisoned) && unchanged(this)
      ensures !old(poisoned) && old(frames) == [] ==>
        r == Failure(NoActiveFrame) && modified && !poisoned && frames == old(frames)
      ensures !old(poisoned) && old(frames) != [] ==>
        && r == Success && modified && !poisoned
        && frames == AppendEntry(old(frames), Entry(name, v))
        && PointCount(frames) == PointCount(old(frames)) + 1
        && Names(frames) == Names(old(frames)) + [name]
        && Kinds(frames) == Kinds(old(frames)) + [Kind(v)]
        && Times(frames) == Times(old(frames)) + [|old(frames)| as real]
        && MetadataColumn(frames) == MetadataColumn(old(frames)) + [Metadata(v)]
      ensures !old(poisoned) && old(frames) != [] && AllPositioned(old(frames)) && HasPosition(v) ==>
        AllPositioned(frames) && Positions(frames) == Positions(old(frames)) + Vec3Array(Position(v))
      ensures old(Valid()) ==> Valid()
      ensures old(Valid()) && !old(poisoned) ==> r == Success
    {
      if poisoned {
        return Failure(LockPoisoned);
      }
      modified := true;
      if frames == [] {
        return Failure(NoActiveFrame);
      }
      var e := Entry(name, v);
      LogEffect(frames, e);
      frames := AppendEntry(frames, e);
      r := Success;
    }

    /**
     * `save`: nothing happens unless something was logged since the last
     * save. Otherwise the flag is cleared before the export starts, so a
     * failed export is not retried by the next save, and the export issues
     * the plan's calls until the host rejects one. A panic, in the positions
     * column or on a missing recordings node, leaves the lock poisoned. The
     * frames are never cleared.
     */
    method Save(host: HostAnswer) returns (r: Outcome, performed: seq<HostCall>)
      modifies this
      ensures old(poisoned) ==> r == Failure(LockPoisoned) && performed == [] && unchanged(this)
      ensures !old(poisoned) && !old(modified) ==> r == Success && performed == [] && unchanged(this)
      ensures !old(poisoned) && old(modified) ==>
        && Run(r, performed) == Execute(ExportPlan(target, old(frames)), host)
        && !modified && frames == old(frames)
        && poisoned == (r == Panic)
    {
      if poisoned {
        return Failure(LockPoisoned), [];
      }
      if !modified {
        return Success, [];
      }
      modified := false;
      var run := Execute(ExportPlan(target, frames), host);
      r, performed := run.outcome, run.performed;
      poisoned := r == Panic;
    }

    /**
     * `Drop`: a last save whose error is only reported. A panic is not
     * caught: it leaves the lock poisoned as in `Save` and unwinds out of
     * whatever dropped the logger, which `panicked` reports.
     */
    method Drop(host: HostAnswer) returns (panicked: bool, performed: seq<HostCall>)
      modifies this
      ensures old(poisoned) || !old(modified) ==> !panicked && performed == [] && unchanged(this)
      ensures !old(poisoned) && old(modified) ==>
        && performed == Execute(ExportPlan(target, old(frames)), host).performed
        && panicked == (Execute(ExportPlan(target, old(frames)), host).outcome == Panic)
        && !modified && frames == old(frames)
        && poisoned == panicked
    {
      var r, p := Save(host);
      panicked, performed := r == Panic, p;
    }
  }
}

=== FILE: wrappers.dfy ===
/** Option, with the members that let `:-` propagate an absent value. */
module Wrappers {

  datatype Option<+T> = None | Some(value: T) {

    predicate IsFailure() {
      None?
    }

    function PropagateFailure<U>(): Option<U>
      requires None?
    {
      None
    }

    function Extract(): T
      requires Some?
    {
      value
    }
  }
}
